=== FILE: README.md ===
# ormchair property and document core, in Dafny

ormchair is a small Python 2 object mapper for CouchDB. A class derived from
`Schema` declares typed descriptor properties. An instance keeps their values
in `_propertyValues`. It can be filled from a dict (`instanceFromDict`) and
exported back to one (`instanceToDict`). The class itself can be exported as
a JSON Schema (draft 03) document (`schemaToDict`). `Document` adds the
CouchDB bookkeeping properties `_id`, `_rev` and `type_`, a deletion mark,
and the body that is sent to the database (`toJson`). `Database` turns a
`_bulk_docs` response into saved and failed documents, and `addLinks`
records a relation between documents as a pair of `LinkDocument`s.

The model covers all of `ormchair.py` except the parts listed under
"## Left out". Its modules:

- **Values** (`values.dfy`): the Python values a property can receive, and
  truthiness. `bool` is a kind of `int`. An integer inside the 64-bit native
  range is an `int`, and one outside it is a `long`.
- **Results** (`results.dfy`): the exceptions the core raises, as error values.
- **Properties** (`properties.dfy`): a property declaration is a `Property`
  (required flag, default, kind). A class is a `Schema`: its name, its
  `_is_root` flag, and its `_properties` list with the descriptor of each
  entry. `getattr(cls, name)` resolves to the last declaration of the name.
  `Derive` gives the `_properties` list of a class statement with a single
  base.
- **Validation** (`validation.dfy`): the `_validate` methods of the four
  scalar properties.
- **Instances** (`instances.dfy`): `__set__`/`__get__` of every property
  kind, `Schema.__init__`, `instanceFromDict`, `instanceToDict`, and the
  validation `DictPropertyList` performs on an item.
- **Invariant**, **RoundTrip** and **Descriptors**: what those operations
  preserve and promise.
- **PropertyLists** (`lists.dfy`): the validated list operations of
  `DictPropertyList`.
- **JsonSchema** (`jsonschema.dfy`): `schemaToDict` of classes and properties.
- **Documents** (`documents.dfy`): `Document.__init__`, `toJson` (as the map
  that is serialised), `hasBeenAdded` and `setMarkedForDelete`.
- **Bulk** (`bulk.dfy`): the partition `_bulkDocs` makes from the response
  rows, and `deleteMultiple`.
- **Links** (`links.dfy`): the reverse property `LinkProperty` wires onto its
  target class, `LinkDocument`, and `addLinks`.
- **Sequences** (`sequences.dfy`): order-preserving selection, the shape of
  the saved and failed lists.

An instance holds at most one stored value per name. A Dict property holds
its nested instance. A List property holds its item instances. An
EmbeddedLink property holds its `EmbeddedLink` helper. A scalar property
holds the value as assigned. A Link property stores nothing. Operations that
can raise return a `Result`.

## Model

| member | source | states |
|---|---|---|
| Validation.ValidateString | ormchair.py:230-243 | a string property accepts exactly the falsy values and the strings whose length meets each non-zero bound; a truthy non-string is refused as "Not a string" |
| Validation.ValidateNumber | ormchair.py:280-294 | a number property accepts exactly the falsy values and the numbers (bool included) within each non-zero bound; a truthy non-number is refused as "Not a number" |
| Validation.ValidateInteger | ormchair.py:322-327 | an integer property accepts exactly the falsy values and the integers in the native range (bool included, a long beyond it excluded); its bounds are never checked |
| Validation.ValidateBoolean | ormchair.py:352-357 | a boolean property accepts exactly the falsy values and the booleans |
| Validation.ValidateScalar | ormchair.py:77-80 | falsy values always pass; only the four scalar kinds ever refuse a value, and always with a ValidationError |
| Validation.WrongTypeRejected | ormchair.py:230-357 | a truthy value of the wrong type is refused by every scalar property |
| Values.Lower | ormchair.py:189 | `str.lower()` keeps the length, turns each ASCII capital into the letter at the same place in the lower-case alphabet, keeps every other character, and leaves no capital behind |
| Properties.LastIndex | ormchair.py:151 | in a class whose ancestors each have one base, `getattr(cls, name)` finds the last declaration of the name in `_properties` |
| Properties.Derive | ormchair.py:113-126 | the `_properties` of a subclass of one base is the base's list followed by its own names, so it declares exactly both sets of names |
| Properties.DeriveLookupOwn | ormchair.py:113-126 | a name the subclass declares resolves to its own last declaration |
| Properties.DeriveLookupInherited | ormchair.py:113-126 | a name only the base declares resolves as in the base |
| Instances.Elements | ormchair.py:444 | `map` over a value: a list gives its items, a string its characters, a dict one element per key, and anything else is a TypeError |
| Descriptors.ScalarAssign | ormchair.py:54-59 | assigning a scalar property succeeds exactly when validation passes and fails with the validator's error; the property then reads back the value and no other name changes |
| Descriptors.NeverSetReadsNone | ormchair.py:43-52 | a scalar property never assigned reads as None |
| Descriptors.UndeclaredAssign | ormchair.py:134-145 | `Schema` has no `__setattr__`, so assigning a name outside `_properties` leaves every property value as it was; such a name is not a property and reading it as one is an AttributeError |
| Descriptors.ConstructFromDefaults | ormchair.py:142-152 | the construction loop stores each scalar property's default, which must have validated, and leaves the names it has not reached alone |
| Descriptors.ConstructDefaults | ormchair.py:142-152 | after construction each scalar property reads as its default |
| Descriptors.ConstructOnce | ormchair.py:142-152 | after construction a property of any kind declared once holds what assigning its default to an empty slot stores, and that assignment succeeded |
| Descriptors.ConstructFromOnce | ormchair.py:148-152 | the construction loop stores that value when it reaches the name's one declaration and keeps it to the end |
| Descriptors.ConstructEmptyList | ormchair.py:148-152 | a List property declared once without a default starts out as an empty list |
| Descriptors.ConstructFailsOnBadDefault | ormchair.py:142-152 | a class of scalar and Link properties can be instantiated exactly when every scalar default passes its own validation |
| Descriptors.ConstructFromSucceeds | ormchair.py:148-152 | when every scalar default validates, the construction loop succeeds from any position |
| Descriptors.LinkInert | ormchair.py:570-582 | assigning a Link property changes nothing; it reads as the (instance, descriptor) pair and exports as None |
| Descriptors.EmbeddedAssignDocument | ormchair.py:641-647 | assigning a document of the linked class inflates the embedded link: it reads as the document and exports the document's `_id` |
| Descriptors.EmbeddedAssignId | ormchair.py:641-651 | assigning anything else only replaces the stored id: the inflated flag and document stay, and the export is the value |
| Invariant.SetPropValid | ormchair.py:54-59 | a successful descriptor assignment leaves a well-formed stored value, and every kind but Link stores one |
| Invariant.SetAttrValid | ormchair.py:54-59 | a successful `setattr` keeps every stored value well-formed and never drops a stored name |
| Invariant.ConstructValid | ormchair.py:142-152 | a constructed instance is well-formed and holds a value for every non-Link property |
| Invariant.ConstructFromValid | ormchair.py:148-152 | each step of the construction loop keeps the instance well-formed and complete so far |
| Invariant.FromDictValid | ormchair.py:155-162 | importing a dict into a well-formed instance keeps it well-formed |
| Invariant.AssignFromValid | ormchair.py:157-160 | the import loop keeps the instance well-formed |
| Invariant.MakeListValid | ormchair.py:436-446 | every item of a newly built property list is a well-formed item instance |
| Invariant.ValidateItemsValid | ormchair.py:457 | every item a batch validation produces is well-formed |
| Invariant.ValidateItemValid | ormchair.py:465-473 | an item that passes validation is a well-formed instance of the item class |
| RoundTrip.AssignFromOk | ormchair.py:155-162 | the import of a dict of declared keys succeeds exactly when every assignment it makes succeeds |
| RoundTrip.AssignFromValues | ormchair.py:155-162 | after a successful import each name holds the result of assigning its dict entry, and every other name is unchanged |
| RoundTrip.FromDictImports | ormchair.py:155-162 | an undeclared key raises "No property exists"; otherwise the import succeeds exactly when every entry can be assigned, and each name then holds its entry's assignment |
| RoundTrip.FromDictFails | ormchair.py:155-162 | whatever the dict's iteration order, the import fails exactly when some key is undeclared or refused, and it raises the failure of one such key |
| RoundTrip.AssignFromError | ormchair.py:157-160 | a failing import loop raises the error of a key whose assignment is refused |
| RoundTrip.FromDictIgnoresNonDict | ormchair.py:157 | a value that is not a dict is ignored |
| RoundTrip.ToDictKeys | ormchair.py:165-174 | the export has exactly one key per declared property name |
| RoundTrip.DictRoundTrip | ormchair.py:155-174 | importing an instance's export into any well-formed instance succeeds and reproduces the export |
| RoundTrip.SetPropRoundTrip | ormchair.py:392-418 | assigning a property's exported value to the property reproduces the export |
| RoundTrip.ItemsRoundTrip | ormchair.py:517-537 | validating the exports of list items succeeds and reproduces each item's export |
| RoundTrip.ItemRoundTrip | ormchair.py:517-537 | validating one item's export succeeds and reproduces that export |
| RoundTrip.PartialRoundTrip | ormchair.py:155-174 | importing part of an export succeeds; the imported names then export as in the source instance and the rest as before |
| PropertyLists.ValidateItemsElementwise | ormchair.py:444 | batch validation succeeds exactly when every item validates; it yields the items in order, and on failure reports the first failing item's error |
| PropertyLists.Append | ormchair.py:476 | `append` validates the one new item and adds it at the end |
| PropertyLists.InsertPosition | ormchair.py:478 | `list.insert` clamps the index: a negative index counts from the end, and the result always lies within the list |
| PropertyLists.Insert | ormchair.py:478 | `insert` validates the one new item and places it at the clamped position, keeping the rest in order |
| PropertyLists.AddAll | ormchair.py:477-480 | `extend`, `+` and `+=` add every element or none: a non-iterable is a TypeError, and the first invalid element's error is raised |
| PropertyLists.SliceBounds | ormchair.py:482 | slice bounds are clamped into the list, and an empty slice sits at its clamped start |
| PropertyLists.SetSliceAsWritten | ormchair.py:482 | slice assignment as written maps over the start index, so it always raises TypeError |
| PropertyLists.SetSlice | ormchair.py:482 | slice assignment as intended replaces the clamped slice with the validated elements, all or nothing |
| PropertyLists.SetItemAsWritten | ormchair.py:481 | item assignment as written validates the index instead of the value, so it always fails |
| PropertyLists.SetItemAsWrittenRefusesIndex | ormchair.py:481 | for any index that is not a dict, item assignment as written raises TypeError |
| PropertyLists.SetItem | ormchair.py:481 | item assignment as intended validates the value, replaces exactly the indexed item, and raises IndexError outside the list |
| PropertyLists.SetItemCounterexample | ormchair.py:481 | `items[0] = {}` on a one-item list fails as written and succeeds as intended |
| PropertyLists.SetSliceCounterexample | ormchair.py:482 | `items[0:0] = []` fails as written and succeeds as intended |
| PropertyLists.ListOpsKeepValid | ormchair.py:476-482 | every list operation keeps every item well-formed |
| PropertyLists.AppendRoundTrip | ormchair.py:476 | appending an item's export adds an item that exports the same |
| PropertyLists.ListAssign | ormchair.py:517-523 | assigning a List property builds a validated list of the given elements, all or nothing; None becomes the empty list; no other name changes |
| JsonSchema.StrOf | ormchair.py:252-253 | `str()` of a string default is the string itself, of a bool `True` or `False`, and of an int the decimal digits whose value is its magnitude, after a minus sign exactly when it is negative |
| Values.Decimal | ormchair.py:253 | `str()` of an integer is a string of decimal digits, with no leading zero except for 0 itself, that reads back as the integer's magnitude, after a `-` exactly when the integer is negative |
| JsonSchema.RequiredPart | ormchair.py:87-94 | the base schema has the key "required" exactly when the property is required |
| JsonSchema.StringSchema | ormchair.py:246-261 | a string property's schema has type "string", and it has "required", "default", "minLength" and "maxLength" exactly when those are set; "default" holds `str()` of the default and the bounds their values |
| JsonSchema.PropSchema | ormchair.py:297-310 | a property's schema fails exactly when a Number or Integer property is reached, with a NameError |
| JsonSchema.Collect | ormchair.py:193-203 | collecting the class's properties fails exactly when one of them reaches a Number or Integer property |
| JsonSchema.SchemaToDict | ormchair.py:178-209 | a class's schema fails exactly when a Number or Integer property is reachable, with a NameError |
| JsonSchema.CollectLinks | ormchair.py:193-201 | the links list holds the Link properties' schemas in `_properties` order |
| JsonSchema.CollectProperties | ormchair.py:193-203 | "properties" has one entry per non-Link name, holding that property's schema |
| JsonSchema.SchemaToDictShape | ormchair.py:178-209 | the class schema has type "object"; a root class adds the draft-03 `$schema` and its lower-cased name as `id`; "links" appears exactly when there are Link properties |
| JsonSchema.SchemaToDictProperties | ormchair.py:178-209 | the class schema's "properties" are exactly the non-Link names, each with its property's schema |
| JsonSchema.StringSchemaMatchesValidator | ormchair.py:230-261 | a non-empty string the validator accepts meets the exported length bounds |
| JsonSchema.LinkTargetsSchemaId | ormchair.py:593-599 | a Link property's `$targetSchema` names the id of the target class's schema |
| JsonSchema.EmbeddedRefsSchemaId | ormchair.py:668-677 | an EmbeddedLink property's type references the id of the target class's schema, or a string |
| JsonSchema.RequiredExported | ormchair.py:87-94 | String and EmbeddedLink schemas carry "required" exactly when required; Boolean, Dict, List and Link schemas never do |
| Documents.DocumentClassStandard | ormchair.py:939-941 | a Document subclass that leaves the bookkeeping properties as plain strings keeps them as String properties |
| Documents.DerivedKind | ormchair.py:939-941 | a subclass keeps the kind of an inherited property unless it redeclares the name with another kind |
| Documents.NewDocument | ormchair.py:943-956 | a new document is of its class and not marked for deletion |
| Documents.LoadDocument | ormchair.py:943-956 | a loaded document is of its class and not marked for deletion |
| Documents.InitDocument | ormchair.py:943-952 | no data makes a new document; any other data is loaded |
| Documents.NewDocumentFields | ormchair.py:943-956 | a new document can be built exactly when the defaults validate; it has the fresh id, the class's truthy `type_` default or else its lower-cased name, and no revision |
| Documents.Marshal | ormchair.py:959-974 | the body holds only property names and `_deleted`; unless a property is named `_deleted`, `_deleted: true` is there exactly when the document is marked |
| Documents.MarshalProperty | ormchair.py:969-972 | every property other than `_rev` is in the body with its descriptor's export |
| Documents.MarshalRev | ormchair.py:969-972 | `_rev` is in the body, with its export, exactly when the document has been added |
| Documents.NonPlainRevAdded | ormchair.py:969-977 | a `_rev` redeclared as a Dict, List or Link property never reads as None, so the document counts as added and its body carries `_rev` |
| Documents.SetMarkedForDelete | ormchair.py:982-984 | marking changes only the mark |
| Documents.MarkAddsDeleted | ormchair.py:959-974 | marking adds `_deleted: true` to the body and changes nothing else in it |
| Documents.SetRev | ormchair.py:813 | setting the revision keeps the class and the mark |
| Documents.SetRevAdds | ormchair.py:813 | after a revision is set the document has been added, its body carries that revision, and nothing else changed |
| Documents.UnmarkedBody | ormchair.py:959-974 | an unmarked body is the export restricted to the body names |
| Documents.UnsetRevExportsAsFresh | ormchair.py:969-972 | when `_rev` is None, leaving it out of the body loses nothing: a fresh instance exports the same `_rev` |
| Documents.LoadIsImport | ormchair.py:943-952 | loading a document is construction followed by `instanceFromDict` |
| Documents.MarshalLoadRoundTrip | ormchair.py:943-974 | loading an unmarked document's body succeeds and reproduces its export |
| Documents.RestrictedLoad | ormchair.py:943-972 | loading every export but an unset `_rev` succeeds and reproduces the export |
| Documents.RestrictedImport | ormchair.py:155-162 | importing every export but one `_rev` that both instances share reproduces the export |
| Documents.DeletedBodyNotLoadable | ormchair.py:155-162 | the body of a marked document cannot be loaded back: `_deleted` is not a property |
| Sequences.Select | ormchair.py:808-818 | the selected elements all satisfy the test and come from the input |
| Sequences.SelectSplits | ormchair.py:808-818 | selecting by a test and by its negation splits the input, as a multiset |
| Sequences.AllOk | ormchair.py:882-902 | collecting results yields every value in order when all succeed, and otherwise the error of the first failure, all earlier ones having succeeded |
| Sequences.AllOkStep | ormchair.py:882-902 | one more success extends the collected values; a failure after only successes is the first failure of the whole |
| Bulk.RevMapLastWins | ormchair.py:805 | an id has a new revision exactly when a row with a revision names it, and the last such row wins |
| Bulk.RevMapKeys | ormchair.py:805 | an id has a new revision exactly when some row with a revision names it |
| Bulk.RevMapLast | ormchair.py:805 | an id's new revision is that of the last row with a revision naming it |
| Bulk.SavedDocs | ormchair.py:811-814 | every document listed as saved has an id the response gave a revision |
| Bulk.FailedDocs | ormchair.py:816-818 | every document listed as failed has no id the response gave a revision |
| Bulk.DocsStep | ormchair.py:808-818 | one more document joins the end of the saved list if the response gave its id a revision, and the end of the failed list otherwise |
| Bulk.PartitionCovers | ormchair.py:808-818 | saved and failed documents together are exactly the submitted documents |
| Bulk.Partition | ormchair.py:797-820 | the loop raises exactly when some document's id is a list or dict (TypeError) or a saved document refuses its revision, and then raises the first such failure; otherwise each saved document, in order, is given its new revision and the others are returned as failed, in order |
| Bulk.NonPlainId | ormchair.py:808-818 | a List `_id` reads as a list and the loop raises TypeError on it; a Dict or Link `_id` reads as an object, which is hashable and never saved |
| Bulk.StandardBatchSaves | ormchair.py:811-814 | each saved standard document has been added and its body carries the new revision |
| Bulk.MarkAll | ormchair.py:836-838 | `deleteMultiple` marks every document and keeps the order |
| Bulk.DeleteBodies | ormchair.py:834-840 | every body `deleteMultiple` submits is the document's body plus `_deleted: true` |
| Bulk.DeleteMultiple | ormchair.py:834-840 | `deleteMultiple` is the partition of the marked documents: it raises exactly when that partition does, with its first failure; otherwise the saved list is the marked saved documents with their new revisions, the failed list is the marked unsaved documents, together they are every submitted document, and all are marked |
| Bulk.MarkedStaysMarked | ormchair.py:808-818 | the partition keeps deletion marks |
| Links.ReverseType | ormchair.py:562-566 | the reverse of a one-to-one or one-to-many link is one-to-one; any other is many-to-many |
| Links.ReverseLinkAsWritten | ormchair.py:559-568 | a reverse property is added exactly when the reverse name is non-empty and the target lacks it; as written it targets the descriptor class and has no reverse |
| Links.ReverseLink | ormchair.py:559-568 | the intended reverse property is added under the same condition |
| Links.ReverseLinkCloses | ormchair.py:559-568 | the intended reverse property links back to the declaring class under the forward name; wiring it, or declaring the forward link again, adds nothing |
| Links.ReverseLinkCounterexample | ormchair.py:568 | `Pet.owner`, a one-to-many link to `Person` with reverse "pets", gives `Person.pets` a link to `LinkProperty` with no reverse name, where a link back to `Pet` through "owner" is meant |
| Links.LinkDocumentClassShape | ormchair.py:990-997 | `LinkDocument` declares the link fields as plain strings, with `type_` defaulting to "_link" and `_rev` to None |
| Links.LinkClassStandard | ormchair.py:990-1000 | `LinkDocument` is a standard document class whose instances can always be built |
| Links.NewLinkDocument | ormchair.py:887 | a new link document has the fresh id, type "_link" and no revision |
| Links.Assign | ormchair.py:888-899 | setting a link document field keeps its class and mark |
| Links.AssignField | ormchair.py:888-899 | a link document field accepts exactly the string-like values, stores the value given, and touches nothing else |
| Links.AssignAll | ormchair.py:888-899 | assigning several fields keeps the document's class and mark |
| Links.AssignAllFields | ormchair.py:888-899 | assigning distinct fields succeeds exactly when every value is string-like; each field then holds its value and the others are unchanged |
| Links.LinkDocumentInFields | ormchair.py:887-892 | a link document can be built exactly when both endpoints' ids and types are string-like |
| Links.LinkDocumentInValues | ormchair.py:887-899 | a link document carries the link name, both endpoints' ids and types, the fresh id and type "_link", and has not been added |
| Links.LinkDocumentInBookkeeping | ormchair.py:887-892 | a built link document has the fresh id, type "_link" and no revision |
| Links.LinkDocumentInEndpoints | ormchair.py:888-899 | a built link document reads back the link name and both endpoints' ids and types |
| Links.LinkPairEnds | ormchair.py:887-899 | the pair is built exactly when both endpoints' ids and types are string-like; the forward document runs from the source to the target, with their ids and types, under the property's name, and the backward one runs the other way, ends and types swapped, under the reverse name |
| Links.Pairs | ormchair.py:882-902 | the pairs are built exactly when every target's pair is, one per target in order; otherwise the error is that of the first target whose pair fails |
| Links.PairsStep | ormchair.py:882-902 | one more target either extends the pairs built so far by its pair or, failing, makes the whole fail with its error |
| Links.AddLinks | ormchair.py:871-904 | `addLinks` succeeds exactly when every target's pair can be built and then queues the unsaved source, then per target the unsaved target and its two link documents; otherwise it fails with the first failure |
| Links.QueuedStep | ormchair.py:882-902 | handling one more target appends its unsaved document and its two link documents to the queue |
| Links.QueuedCount | ormchair.py:877-902 | one document is queued per unsaved endpoint, plus two link documents per target |
| Links.QueuedFirst | ormchair.py:877-879 | an unsaved source document is queued first |
| Links.QueuedMembers | ormchair.py:877-902 | everything queued is the unsaved source, an unsaved target, or a link document |
| Links.QueuedPairsAdjacent | ormchair.py:902 | each target's two link documents are queued side by side |

## Left out

- HTTP and JSON: `Server`, the requests made by `Database`, and `json.dumps`
  are not modelled. A document's body is the map that would be serialised.
  The `_bulk_docs` response is a parameter, a list of `(id, revision)` rows.
- Fresh ids: `uuid.uuid1().hex` becomes a parameter of `NewDocument`, and of
  `AddLinks` for each link document.
- Class creation: `SchemaMetaClass` and `DocumentMetaClass` are not modelled
  as code. `Derive` gives the `_properties` list they build. The order of a
  class's own names comes from Python's class-dict iteration order, which is
  arbitrary; the model takes one order as given.
- `type_class_map`, `Database.get` and `Database.getMultiple` choose the class
  from the loaded data. They are left out with the HTTP layer; loading a
  document of a known class is `LoadDocument`.
- `Database.add`, `update`, `addMultiple`, `updateMultiple` and `addLink` only
  wrap the HTTP call or `addLinks`. Their bookkeeping is `SetRev` and
  `Partition`.
- `syncClasses` is an empty method. `DictProperty.valueFromDict` has no caller.
  Neither is modelled.
- Floating point: float values and bounds are exact reals. `complex` is not
  modelled.
- `NumberProperty.schemaToDict` and `IntegerProperty.schemaToDict` use an
  undefined variable and raise NameError. The model returns a NameError error
  for any schema that reaches them and does not model their output.
- Instances.FromDict: a failed import returns only the error. The source has
  already assigned the keys it met before the failing one, in the instance
  it was importing into; that partial state is not modelled.
- RoundTrip.FromDictImports: when several keys fail, the source raises the
  failure of whichever it meets first in dict iteration order (string hash
  order), so a refused declared key can be raised even when another key is
  undeclared. The model raises "No property exists" whenever some key is
  undeclared, and otherwise the first refused name in declaration order.
  `FromDictFails` states what holds under every order.
- Instances.ToDict: an EmbeddedLink property that was never assigned makes
  the source raise KeyError. The model exports None. Construction always
  assigns every EmbeddedLink property, so this is unreachable after
  `Schema.__init__`.
- Links.AddLinks: `linkClass` stands for `LinkDocument`, and
  `LinkDocumentClassShape` shows that class has the shape the lemmas assume.
  The bulk submission at the end is `Bulk.Partition`.
- Links.ReverseLinkAsWritten: the target class is modelled only as the set of
  attribute names `hasattr` can see. The added descriptor is never appended to
  the target's `_properties`, and its name is never set.
- Bulk.Partition: the failure is returned without the documents the loop
  already updated. In the source `_bulkDocs` sets `_rev` on the caller's own
  document objects, so the documents before the failing one keep their new
  revisions. The model returns fresh values, and an error drops them.
- Bulk.DeleteMultiple: the source marks the caller's documents in place, so
  they stay marked even when `_bulkDocs` raises; the model's error drops the
  marked copies.
- Properties.Derive: single inheritance only. With several bases the
  metaclass concatenates every base's `_properties`; the model's classes
  have one base.
- Properties.LastIndex: single inheritance only. With several bases
  `getattr` follows the method resolution order, which can pick a
  declaration other than the last one in the concatenated list.
- Validation.ValidateString: lengths count characters (`Values.Str`). A Python
  2 byte `str` holding non-ASCII text counts bytes, so its `minLength` and
  `maxLength` checks and the elements `map` yields over it differ from the
  model's.
- Validation.ValidateInteger: the model tells `int` from `long` by value
  alone. A truthy `long` inside the native range (`5L`, or `10**20 // 10**19`)
  is refused by `isinstance(value, int)` in the source but accepted as an
  integer by the model.
- JsonSchema.StrOf: `str()` of a float, list, dict or object default is not
  rendered; such a default is exported as the value itself. The model does
  not tell a byte `str` from a `unicode` string, and `str()` of a `unicode`
  default holding non-ASCII text raises `UnicodeEncodeError` in the source.
  The model exports that string unchanged.
- Documents.MarshalRev: a Dict `_rev` that was never stored, on an instance
  not built by `Schema.__init__`, makes `self._rev` construct the nested
  class. If that construction raises, the source's `toJson` raises; the
  model reads such a `_rev` as None. A Dict `_id` in that state makes the
  source's `_bulkDocs` raise, while `Bulk.Partition` files the document as
  failed.
- Descriptors.UndeclaredAssign: ordinary instance attributes are not
  modelled. In the source an assignment to a name outside `_properties`
  stores a plain attribute that reads back; the model keeps only
  `_propertyValues`, so it promises only that no property value changes.
- Descriptors.ConstructOnce: a Dict, List or EmbeddedLink name declared more
  than once (a subclass redeclaring an inherited name) is assigned its
  default once per declaration, each time on top of the last. The model
  computes this, but no lemma describes the result.
- Schema-level properties the source accepts and ignores (`format`,
  `pattern`, `divisibleBy`, `_options`) are not modelled.

## Findings

| source | as written | input that shows it | evidently intended | confidence | as-written member | corrected member |
|---|---|---|---|---|---|---|
| ormchair.py:481 | `wrap(list.__setitem__)` validates argument 0, which is the index, not the value | `items[0] = {}` on a one-item list: the index 0 is fed to `instanceFromDict`, which ignores it and returns an empty item, and `list.__setitem__` then receives that item as its index, a TypeError | validate the value (argument 1) and store it at the index | not executed | PropertyLists.SetItemAsWritten | PropertyLists.SetItem |
| ormchair.py:482 | `wrap(list.__setslice__, takes_list=True)` maps the validator over argument 0, the slice start, an int | `items[0:0] = []`: `map` over the int 0 raises TypeError | map the validator over the new elements (argument 2) and replace the slice | not executed | PropertyLists.SetSliceAsWritten | PropertyLists.SetSlice |
| ormchair.py:568 | the reverse `LinkProperty` is built with `self.__class__` as its target and `reverse=self._name`, still None while the class body runs | a `Pet` class declaring `owner = LinkProperty(Person, type="one_to_many", reverse="pets")`: `Person.pets` links to `LinkProperty`, not `Pet`, and has no reverse name | link back to the declaring class, with the forward property's name as the reverse | not executed | Links.ReverseLinkAsWritten | Links.ReverseLink |

=== FILE: bulk.dfy ===
/** `Database._bulkDocs` after the response arrives: which documents were
    saved, their new revisions, and the deletion marking `deleteMultiple`
    applies first. The HTTP exchange is outside the model: the response rows
    are a parameter. */
module Bulk {
  import opened Results
  import opened Values
  import opened Properties
  import opened Instances
  import opened Documents
  import opened Sequences

  /** One row of the `_bulk_docs` response: the document id and, when the
      save succeeded, the new revision. */
  datatype Row = Row(id: string, rev: Option<string>)

  /** `dict([(row["id"], row["rev"]) for row in rows if "rev" in row])`. */
  function RevMap(rows: seq<Row>): map<string, string>
    decreases |rows|
  {
    if |rows| == 0 then map[]
    else
      var last := rows[|rows| - 1];
      var m := RevMap(rows[..|rows| - 1]);
      if last.rev.Some? then m[last.id := last.rev.value] else m
  }

  /** An id is in the map exactly when some row carrying a revision names
      it, and it maps to the revision of the last such row. */
  lemma {:induction false} RevMapLastWins(rows: seq<Row>, id: string)
    ensures id in RevMap(rows) <==> exists i :: 0 <= i < |rows| && rows[i].id == id && rows[i].rev.Some?
    ensures id in RevMap(rows) ==>
              exists i :: 0 <= i < |rows| && rows[i].id == id && rows[i].rev == Some(RevMap(rows)[id]) &&
                forall j :: i < j < |rows| && rows[j].id == id ==> rows[j].rev.None?
  {
    RevMapKeys(rows, id);
    RevMapLast(rows, id);
  }

  lemma {:induction false} RevMapKeys(rows: seq<Row>, id: string)
    ensures id in RevMap(rows) <==> exists i :: 0 <= i < |rows| && rows[i].id == id && rows[i].rev.Some?
    decreases |rows|
  {
    if |rows| > 0 {
      var n := |rows| - 1;
      var init := rows[..n];
      RevMapKeys(init, id);
      assert forall i :: 0 <= i < n ==> init[i] == rows[i];
    }
  }

  lemma {:induction false} RevMapLast(rows: seq<Row>, id: string)
    ensures id in RevMap(rows) ==>
              exists i :: 0 <= i < |rows| && rows[i].id == id && rows[i].rev == Some(RevMap(rows)[id]) &&
                forall j :: i < j < |rows| && rows[j].id == id ==> rows[j].rev.None?
    decreases |rows|
  {
    if |rows| > 0 {
      var n := |rows| - 1;
      var init := rows[..n];
      RevMapLast(init, id);
      if rows[n].id == id && rows[n].rev.Some? {
        assert rows[n].rev == Some(RevMap(rows)[id]);
      } else if id in RevMap(rows) {
        assert id in RevMap(init) && RevMap(rows)[id] == RevMap(init)[id];
        var i :| 0 <= i < n && init[i].id == id && init[i].rev == Some(RevMap(init)[id]) &&
                 forall j :: i < j < n && init[j].id == id ==> init[j].rev.None?;
        assert rows[i] == init[i];
        assert forall j :: i < j < |rows| && rows[j].id == id ==> rows[j].rev.None? by {
          assert forall j :: i < j < n ==> rows[j] == init[j];
        }
      }
    }
  }

  /** `document._id in id_rev_map`. */
  predicate Saved(d: Document, m: map<string, string>) {
    IdOf(d).Str? && IdOf(d).s in m
  }

  /** The documents the response reports saved, in order. */
  function SavedDocs(docs: seq<Document>, m: map<string, string>): (r: seq<Document>)
    ensures forall j :: 0 <= j < |r| ==> Saved(r[j], m)
  {
    Select(docs, d => Saved(d, m))
  }

  /** The documents it does not, in order. */
  function FailedDocs(docs: seq<Document>, m: map<string, string>): (r: seq<Document>)
    ensures forall j :: 0 <= j < |r| ==> !Saved(r[j], m)
  {
    Select(docs, d => !Saved(d, m))
  }

  /** Every document lands in exactly one of the two lists: together they
      are a rearrangement of the submitted documents. */
  lemma PartitionCovers(docs: seq<Document>, m: map<string, string>)
    ensures multiset(SavedDocs(docs, m)) + multiset(FailedDocs(docs, m)) == multiset(docs)
    ensures |SavedDocs(docs, m)| + |FailedDocs(docs, m)| == |docs|
  {
    SelectSplits(docs, d => Saved(d, m), d => !Saved(d, m));
    assert |multiset(SavedDocs(docs, m))| + |multiset(FailedDocs(docs, m))| == |multiset(docs)|;
  }

  /** The revision update a saved document receives. */
  function Updated(d: Document, m: map<string, string>): Result<Document>
    requires Saved(d, m)
  {
    SetRev(d, m[IdOf(d).s])
  }

  /** `document._id in id_rev_map` hashes the id: a list or a dict raises
      `TypeError`. */
  predicate Unhashable(v: Value) {
    v.List? || v.Dict?
  }

  /** The loop's step for one document raises nothing: its id can be
      looked up, and a saved document accepts its new revision. */
  predicate Files(d: Document, m: map<string, string>) {
    !Unhashable(IdOf(d)) && (Saved(d, m) ==> Updated(d, m).Ok?)
  }

  /** What the step for a document that does not file raises. */
  function FileError(d: Document, m: map<string, string>): Error
    requires !Files(d, m)
  {
    if Unhashable(IdOf(d)) then TypeError else Updated(d, m).error
  }

  /** An `_id` redeclared as a List property reads as a `DictPropertyList`,
      which cannot be hashed: the loop raises `TypeError` on it. A Dict or
      Link `_id` reads as an object, which is never a key of the map: the
      document is filed as failed. */
  lemma NonPlainId(d: Document, m: map<string, string>)
    requires Declared(d.schema, "_id")
    requires Read(d.schema, d.inst, "_id").Ok?
    ensures Lookup(d.schema, "_id").kind.ListKind? ==> !Files(d, m) && FileError(d, m) == TypeError
    ensures Lookup(d.schema, "_id").kind.DictKind? || Lookup(d.schema, "_id").kind.LinkKind? ==>
              !Unhashable(IdOf(d)) && !Saved(d, m)
  {
  }

  /** The loop of `_bulkDocs`: each document whose id has a revision gets
      it and joins the saved list, every other document joins the failed
      list; both keep the submission order. The loop raises at the first
      document whose id cannot be hashed or whose class refuses the
      revision (a `_rev` redeclared with constraints the revision breaks). */
  method Partition(docs: seq<Document>, rows: seq<Row>) returns (r: Result<(seq<Document>, seq<Document>)>)
    ensures var m := RevMap(rows);
            r.Ok? <==> forall i :: 0 <= i < |docs| ==> Files(docs[i], m)
    ensures var m := RevMap(rows);
            r.Err? ==>
              exists i :: 0 <= i < |docs| && !Files(docs[i], m) && r.error == FileError(docs[i], m) &&
                forall k :: 0 <= k < i ==> Files(docs[k], m)
    ensures var m := RevMap(rows);
            r.Ok? ==> r.value.1 == FailedDocs(docs, m)
    ensures var m := RevMap(rows);
            r.Ok? ==>
              |r.value.0| == |SavedDocs(docs, m)| &&
              forall j :: 0 <= j < |r.value.0| ==>
                Updated(SavedDocs(docs, m)[j], m).Ok? && r.value.0[j] == Updated(SavedDocs(docs, m)[j], m).value
  {
    var m := RevMap(rows);
    var ok: seq<Document> := [];
    var failed: seq<Document> := [];
    var i := 0;
    while i < |docs|
      invariant 0 <= i <= |docs|
      invariant failed == FailedDocs(docs[..i], m)
      invariant |ok| == |SavedDocs(docs[..i], m)|
      invariant forall j :: 0 <= j < |ok| ==>
                  Updated(SavedDocs(docs[..i], m)[j], m).Ok? && ok[j] == Updated(SavedDocs(docs[..i], m)[j], m).value
      invariant forall k :: 0 <= k < i ==> Files(docs[k], m)
    {
      var d := docs[i];
      DocsStep(docs, i, m);
      if Unhashable(IdOf(d)) {
        return Err(TypeError);
      }
      if Saved(d, m) {
        var u := Updated(d, m);
        if u.Err? {
          return Err(u.error);
        }
        ok := ok + [u.value];
      } else {
        failed := failed + [d];
      }
      i := i + 1;
    }
    assert docs[..|docs|] == docs;
    return Ok((ok, failed));
  }

  /** One more document extends exactly one of the two lists. */
  lemma DocsStep(docs: seq<Document>, i: nat, m: map<string, string>)
    requires i < |docs|
    ensures SavedDocs(docs[..i + 1], m) == SavedDocs(docs[..i], m) + (if Saved(docs[i], m) then [docs[i]] else [])
    ensures FailedDocs(docs[..i + 1], m) == FailedDocs(docs[..i], m) + (if Saved(docs[i], m) then [] else [docs[i]])
  {
    assert docs[..i + 1][..i] == docs[..i];
  }

  /** With standard document classes nothing raises, and every saved
      document has been added, carrying the revision the response gave it. */
  lemma StandardBatchSaves(docs: seq<Document>, m: map<string, string>)
    requires forall i :: 0 <= i < |docs| ==> StandardDocument(docs[i].schema)
    ensures forall i :: 0 <= i < |docs| && Saved(docs[i], m) ==>
              Updated(docs[i], m).Ok? && HasBeenAdded(Updated(docs[i], m).value) &&
              Marshal(Updated(docs[i], m).value)["_rev"] == Str(m[IdOf(docs[i]).s])
  {
    forall i | 0 <= i < |docs| && Saved(docs[i], m)
      ensures Updated(docs[i], m).Ok? && HasBeenAdded(Updated(docs[i], m).value)
      ensures Marshal(Updated(docs[i], m).value)["_rev"] == Str(m[IdOf(docs[i]).s])
    {
      SetRevAdds(docs[i], m[IdOf(docs[i]).s]);
    }
  }

  /** `deleteMultiple`'s first step: every document marked for deletion. */
  function MarkAll(docs: seq<Document>): (r: seq<Document>)
    ensures |r| == |docs|
    ensures forall i :: 0 <= i < |docs| ==> r[i] == SetMarkedForDelete(docs[i], true)
  {
    seq(|docs|, i requires 0 <= i < |docs| => SetMarkedForDelete(docs[i], true))
  }

  /** The bodies `deleteMultiple` submits all carry `_deleted: true`, and
      are otherwise the bodies of the unmarked documents. */
  lemma DeleteBodies(docs: seq<Document>)
    requires forall i :: 0 <= i < |docs| ==> !Declared(docs[i].schema, "_deleted")
    ensures forall i :: 0 <= i < |docs| ==>
              var b := Marshal(MarkAll(docs)[i]);
              "_deleted" in b && b["_deleted"] == Bool(true) &&
              forall k :: k != "_deleted" ==> (k in b <==> k in Marshal(docs[i])) && (k in b ==> b[k] == Marshal(docs[i])[k])
  {
    forall i | 0 <= i < |docs| {
      MarkAddsDeleted(docs[i]);
    }
  }

  /** `deleteMultiple`: mark every document, then submit them in bulk. The
      outcome is the partition of the marked documents: both returned lists
      hold only marked documents, and together they account for every
      document submitted. */
  method DeleteMultiple(docs: seq<Document>, rows: seq<Row>) returns (r: Result<(seq<Document>, seq<Document>)>)
    ensures var m := RevMap(rows);
            r.Ok? <==> forall i :: 0 <= i < |docs| ==> Files(MarkAll(docs)[i], m)
    ensures var m := RevMap(rows);
            r.Err? ==>
              exists i :: 0 <= i < |docs| && !Files(MarkAll(docs)[i], m) && r.error == FileError(MarkAll(docs)[i], m) &&
                forall k :: 0 <= k < i ==> Files(MarkAll(docs)[k], m)
    ensures var m := RevMap(rows);
            r.Ok? ==> r.value.1 == FailedDocs(MarkAll(docs), m)
    ensures var m := RevMap(rows);
            r.Ok? ==>
              |r.value.0| == |SavedDocs(MarkAll(docs), m)| &&
              forall j :: 0 <= j < |r.value.0| ==>
                Updated(SavedDocs(MarkAll(docs), m)[j], m).Ok? &&
                r.value.0[j] == Updated(SavedDocs(MarkAll(docs), m)[j], m).value
    ensures var m := RevMap(rows);
            r.Ok? ==> multiset(SavedDocs(MarkAll(docs), m)) + multiset(r.value.1) == multiset(MarkAll(docs))
    ensures r.Ok? ==> forall j :: 0 <= j < |r.value.0| ==> r.value.0[j].marked
    ensures r.Ok? ==> forall j :: 0 <= j < |r.value.1| ==> r.value.1[j].marked
    ensures r.Ok? ==> |r.value.0| + |r.value.1| == |docs|
  {
    var marked := MarkAll(docs);
    r := Partition(marked, rows);
    if r.Ok? {
      var m := RevMap(rows);
      PartitionCovers(marked, m);
      MarkedStaysMarked(marked, m);
    }
  }

  lemma MarkedStaysMarked(docs: seq<Document>, m: map<string, string>)
    requires forall i :: 0 <= i < |docs| ==> docs[i].marked
    ensures forall j :: 0 <= j < |SavedDocs(docs, m)| ==> SavedDocs(docs, m)[j].marked
    ensures forall j :: 0 <= j < |FailedDocs(docs, m)| ==> FailedDocs(docs, m)[j].marked
    ensures forall j :: 0 <= j < |SavedDocs(docs, m)| && Updated(SavedDocs(docs, m)[j], m).Ok? ==>
              Updated(SavedDocs(docs, m)[j], m).value.marked
  {
  }
}

=== FILE: descriptors.dfy ===
/** What the descriptor protocol promises a user of a schema instance:
    assignment validates and reads back, a name never assigned reads `None`,
    construction gives every scalar property its default and every property
    declared once what assigning its default stores, Link properties are
    inert, and an EmbeddedLink property caches a linked document but always
    exports its id. */
module Descriptors {
  import opened Results
  import opened Values
  import opened Properties
  import opened Validation
  import opened Instances
  import opened RoundTrip

  /** Assigning a scalar property succeeds exactly when the descriptor's
      `_validate` accepts the value; the value then reads back unchanged,
      and no other name changes. A refused value raises the validator's
      `ValidationError`. */
  lemma ScalarAssign(s: Schema, inst: Instance, name: string, v: Value)
    requires Declared(s, name) && IsScalarKind(Lookup(s, name).kind)
    ensures SetAttr(s, inst, name, v).Ok? <==> ValidateScalar(Lookup(s, name).kind, v) == Pass
    ensures SetAttr(s, inst, name, v).Err? ==>
              SetAttr(s, inst, name, v).error == ValidateScalar(Lookup(s, name).kind, v).error
    ensures SetAttr(s, inst, name, v).Ok? ==> Read(s, SetAttr(s, inst, name, v).value, name) == Ok(Plain(v))
    ensures SetAttr(s, inst, name, v).Ok? ==>
              forall k :: k != name ==> Current(SetAttr(s, inst, name, v).value, k) == Current(inst, k)
  {
  }

  /** A scalar property that was never assigned reads as `None`. */
  lemma NeverSetReadsNone(s: Schema, inst: Instance, name: string)
    requires Declared(s, name) && IsScalarKind(Lookup(s, name).kind)
    requires name !in inst.values
    ensures Read(s, inst, name) == Ok(Plain(Null))
  {
  }

  /** `Schema` defines no `__setattr__`, so an assignment to a name outside
      `_properties` reaches no descriptor and changes no property value; and
      such a name is not a property, so reading it as one fails. Ordinary
      instance attributes are not part of the model. */
  lemma UndeclaredAssign(s: Schema, inst: Instance, name: string, v: Value)
    requires !Declared(s, name)
    ensures SetAttr(s, inst, name, v) == Ok(inst)
    ensures Read(s, inst, name) == Err(AttributeError)
  {
  }

  /** Construction from position `i` on: each scalar name declared at or
      after `i` ends up holding its descriptor's default, every name not
      declared there keeps what `acc` held, and the construction fails
      only if some default is refused. */
  lemma {:induction false} ConstructFromDefaults(s: Schema, i: nat, acc: Instance)
    requires i <= |s.fields|
    ensures ConstructFrom(s, i, acc).Ok? ==>
              forall k :: k in NamesFrom(s, i) && Declared(s, k) && IsScalarKind(Lookup(s, k).kind) ==>
                Current(ConstructFrom(s, i, acc).value, k) == Some(Scalar(Lookup(s, k).default))
    ensures ConstructFrom(s, i, acc).Ok? ==>
              forall k :: k !in NamesFrom(s, i) ==> Current(ConstructFrom(s, i, acc).value, k) == Current(acc, k)
    ensures ConstructFrom(s, i, acc).Ok? ==>
              forall k :: k in NamesFrom(s, i) && Declared(s, k) && IsScalarKind(Lookup(s, k).kind) ==>
                ValidateScalar(Lookup(s, k).kind, Lookup(s, k).default) == Pass
    decreases |s.fields| - i
  {
    if i < |s.fields| {
      var name := s.fields[i].name;
      FieldDeclared(s, i);
      NamesFromStep(s, i);
      var r := SetAttr(s, acc, name, Lookup(s, name).default);
      if r.Ok? {
        ConstructFromDefaults(s, i + 1, r.value);
        if ConstructFrom(s, i, acc).Ok? {
          assert ConstructFrom(s, i, acc) == ConstructFrom(s, i + 1, r.value);
          var res := ConstructFrom(s, i, acc).value;
          forall k | k !in NamesFrom(s, i) ensures Current(res, k) == Current(acc, k) {
            assert k != name;
          }
          var p := Lookup(s, name);
          if IsScalarKind(p.kind) {
            var sp := SetProp(p, Current(acc, name), p.default);
            assert sp.Ok? && r.value == Store(acc, name, sp.value);
            assert !p.kind.DictKind? && !p.kind.ListKind? && !p.kind.LinkKind? && !p.kind.EmbeddedLinkKind?;
            assert sp == (match ValidateScalar(p.kind, p.default)
                          case Pass => Ok(Some(Scalar(p.default)))
                          case Fail(e) => Err(e));
            assert ValidateScalar(p.kind, p.default) == Pass;
            assert Current(r.value, name) == Some(Scalar(p.default));
            assert Current(res, name) == Some(Scalar(p.default));
          }
          forall k | k in NamesFrom(s, i) && Declared(s, k) && IsScalarKind(Lookup(s, k).kind)
            ensures Current(res, k) == Some(Scalar(Lookup(s, k).default))
            ensures ValidateScalar(Lookup(s, k).kind, Lookup(s, k).default) == Pass
          {
            if k != name { assert k in NamesFrom(s, i + 1); }
          }
        }
      }
    }
  }

  /** `Schema.__init__`: every scalar property reads its default afterwards. */
  lemma ConstructDefaults(s: Schema, name: string)
    requires Declared(s, name) && IsScalarKind(Lookup(s, name).kind)
    ensures Construct(s).Ok? ==> Read(s, Construct(s).value, name) == Ok(Plain(Lookup(s, name).default))
  {
    var j := LastIndex(s, name);
    assert name in NamesFrom(s, 0);
    ConstructFromDefaults(s, 0, Fresh);
  }

  /** A name declared only once in `_properties`. */
  predicate DeclaredOnce(s: Schema, name: string) {
    Declared(s, name) &&
    forall k :: 0 <= k < |s.fields| && s.fields[k].name == name ==> k == LastIndex(s, name)
  }

  /** The construction loop from position `i` on, for a name declared once
      at or after `i` and not yet stored: the name ends up holding what its
      descriptor stores when its default is assigned to an empty slot. */
  lemma {:induction false} ConstructFromOnce(s: Schema, i: nat, acc: Instance, name: string)
    requires DeclaredOnce(s, name) && i <= LastIndex(s, name)
    requires Current(acc, name) == None
    ensures ConstructFrom(s, i, acc).Ok? ==>
              SetProp(Lookup(s, name), None, Lookup(s, name).default).Ok? &&
              Current(ConstructFrom(s, i, acc).value, name) == SetProp(Lookup(s, name), None, Lookup(s, name).default).value
    decreases |s.fields| - i
  {
    var here := s.fields[i].name;
    FieldDeclared(s, i);
    var r := SetAttr(s, acc, here, Lookup(s, here).default);
    if r.Ok? {
      assert ConstructFrom(s, i, acc) == ConstructFrom(s, i + 1, r.value);
      if here == name {
        ConstructFromDefaults(s, i + 1, r.value);
        assert name !in NamesFrom(s, i + 1);
      } else {
        ConstructFromOnce(s, i + 1, r.value, name);
      }
    }
  }

  /** `Schema.__init__` for a property of any kind declared once: a Dict
      property holds its nested instance with the default imported, a List
      property the validated list of the default's elements, an
      EmbeddedLink property its helper built from the default, and a Link
      property nothing. */
  lemma ConstructOnce(s: Schema, name: string)
    requires DeclaredOnce(s, name)
    ensures Construct(s).Ok? ==>
              SetProp(Lookup(s, name), None, Lookup(s, name).default).Ok? &&
              Current(Construct(s).value, name) == SetProp(Lookup(s, name), None, Lookup(s, name).default).value
  {
    ConstructFromOnce(s, 0, Fresh, name);
  }

  /** In particular a List property declared once with no default starts
      out as an empty list. */
  lemma ConstructEmptyList(s: Schema, name: string)
    requires DeclaredOnce(s, name) && Lookup(s, name).kind.ListKind? && Lookup(s, name).default == Null
    ensures Construct(s).Ok? ==> Current(Construct(s).value, name) == Some(Items([]))
  {
    ConstructOnce(s, name);
  }

  /** For a schema of scalar and Link properties, `Schema.__init__` raises
      exactly when some property's default fails its own validation. */
  lemma ConstructFailsOnBadDefault(s: Schema)
    requires forall k :: k in Names(s) ==> IsScalarKind(Lookup(s, k).kind) || Lookup(s, k).kind.LinkKind?
    ensures Construct(s).Ok? <==>
              forall k :: k in Names(s) && IsScalarKind(Lookup(s, k).kind) ==>
                ValidateScalar(Lookup(s, k).kind, Lookup(s, k).default) == Pass
  {
    assert NamesFrom(s, 0) == Names(s);
    ConstructFromDefaults(s, 0, Fresh);
    if forall k :: k in Names(s) && IsScalarKind(Lookup(s, k).kind) ==>
                     ValidateScalar(Lookup(s, k).kind, Lookup(s, k).default) == Pass {
      ConstructFromSucceeds(s, 0, Fresh);
    }
  }

  lemma {:induction false} ConstructFromSucceeds(s: Schema, i: nat, acc: Instance)
    requires i <= |s.fields|
    requires forall k :: k in Names(s) ==> IsScalarKind(Lookup(s, k).kind) || Lookup(s, k).kind.LinkKind?
    requires forall k :: k in Names(s) && IsScalarKind(Lookup(s, k).kind) ==>
               ValidateScalar(Lookup(s, k).kind, Lookup(s, k).default) == Pass
    ensures ConstructFrom(s, i, acc).Ok?
    decreases |s.fields| - i
  {
    if i < |s.fields| {
      var name := s.fields[i].name;
      FieldDeclared(s, i);
      assert name in Names(s);
      var p := Lookup(s, name);
      assert IsScalarKind(p.kind) ==> ValidateScalar(p.kind, p.default) == Pass;
      assert SetProp(p, Current(acc, name), p.default).Ok?;
      ConstructFromSucceeds(s, i + 1, SetAttr(s, acc, name, p.default).value);
    }
  }

  /** A Link property stores nothing: assignment is a no-op, reading yields
      the `(instance, descriptor)` token, and the export is `None`. */
  lemma LinkInert(s: Schema, inst: Instance, name: string, v: Value)
    requires Declared(s, name) && Lookup(s, name).kind.LinkKind?
    ensures SetAttr(s, inst, name, v) == Ok(inst)
    ensures Read(s, inst, name) == Ok(LinkToken(name, Lookup(s, name)))
    ensures ToDict(s, inst).entries[name] == Null
  {
    if name in inst.values {
      assert inst.values[name := inst.values[name]] == inst.values;
    }
  }

  /** Assigning an instance of the linked class inflates the link: the
      document is cached and read back, and its id is what gets exported. */
  lemma EmbeddedAssignDocument(s: Schema, inst: Instance, name: string, doc: Value)
    requires Declared(s, name) && Lookup(s, name).kind.EmbeddedLinkKind?
    requires IsInstanceOf(doc, Lookup(s, name).kind.linkedClass)
    ensures SetAttr(s, inst, name, doc).Ok?
    ensures Read(s, SetAttr(s, inst, name, doc).value, name) == Ok(Plain(doc))
    ensures ToDict(s, SetAttr(s, inst, name, doc).value).entries[name] == doc.id
    ensures forall k :: k != name ==> Current(SetAttr(s, inst, name, doc).value, k) == Current(inst, k)
  {
  }

  /** Assigning anything else only replaces the id: a previously inflated
      link keeps its cached document (and keeps reading as it), an
      uninflated one reads the new id, and the export is the new id. */
  lemma EmbeddedAssignId(s: Schema, inst: Instance, name: string, v: Value)
    requires Declared(s, name) && Lookup(s, name).kind.EmbeddedLinkKind?
    requires !IsInstanceOf(v, Lookup(s, name).kind.linkedClass)
    ensures SetAttr(s, inst, name, v).Ok?
    ensures var before := if name in inst.values && inst.values[name].Embedded? then inst.values[name].link else NoLink;
            Read(s, SetAttr(s, inst, name, v).value, name) == Ok(Plain(if before.inflated then before.document else v))
    ensures ToDict(s, SetAttr(s, inst, name, v).value).entries[name] == v
    ensures forall k :: k != name ==> Current(SetAttr(s, inst, name, v).value, k) == Current(inst, k)
  {
  }
}

=== FILE: documents.dfy ===
/** Documents: schema instances with the CouchDB bookkeeping properties
    `_id`, `_rev` and `type_`, a deletion mark, construction (fresh or from
    stored data) and the body sent to the database (`toJson` before the JSON
    encoding). */
module Documents {
  import opened Results
  import opened Values
  import opened Properties
  import opened Validation
  import opened Instances
  import opened Invariant
  import opened RoundTrip
  import opened Descriptors

  /** `StringProperty(required=True)`, the declaration of all three
      bookkeeping properties. */
  const Bookkeeping := Property(true, Null, StringKind(0, 0))

  /** The `Document` class. */
  const DocumentBase := Schema("Document", true, [Field("_id", Bookkeeping), Field("_rev", Bookkeeping), Field("type_", Bookkeeping)])

  /** `class <className>(Document)` declaring `own`. */
  function DocumentClass(className: string, own: seq<Field>): Schema {
    Derive(DocumentBase, className, own)
  }

  /** A document object: its class, its property values and
      `_marked_for_delete`. */
  datatype Document = Document(schema: Schema, inst: Instance, marked: bool)

  /** The bookkeeping names resolve to bound-free String descriptors, as
      they do unless a subclass redeclares them otherwise. */
  predicate StandardDocument(s: Schema) {
    Declared(s, "_id") && Declared(s, "_rev") && Declared(s, "type_") &&
    Lookup(s, "_id").kind == StringKind(0, 0) &&
    Lookup(s, "_rev").kind == StringKind(0, 0) &&
    Lookup(s, "type_").kind == StringKind(0, 0)
  }

  /** Every document class whose own declarations of the bookkeeping names
      (if any) are plain String properties is standard. */
  lemma DocumentClassStandard(className: string, own: seq<Field>)
    requires forall i :: 0 <= i < |own| && own[i].name in {"_id", "_rev", "type_"} ==> own[i].prop.kind == StringKind(0, 0)
    ensures StandardDocument(DocumentClass(className, own))
  {
    BaseBookkeeping(0);
    DerivedKind(DocumentBase, className, own, "_id", StringKind(0, 0));
    BaseBookkeeping(1);
    DerivedKind(DocumentBase, className, own, "_rev", StringKind(0, 0));
    BaseBookkeeping(2);
    DerivedKind(DocumentBase, className, own, "type_", StringKind(0, 0));
  }

  /** `Document` declares each bookkeeping name with `Bookkeeping`. */
  lemma BaseBookkeeping(i: nat)
    requires i < 3
    ensures Declared(DocumentBase, DocumentBase.fields[i].name)
    ensures Lookup(DocumentBase, DocumentBase.fields[i].name) == Bookkeeping
  {
    FieldDeclared(DocumentBase, i);
    var k := LastIndex(DocumentBase, DocumentBase.fields[i].name);
    assert DocumentBase.fields[k].prop == Bookkeeping;
  }

  /** A name declared in `base` keeps its kind in a subclass whose own
      declarations of it (if any) have that kind too. */
  lemma DerivedKind(base: Schema, className: string, own: seq<Field>, name: string, kind: Kind)
    requires Declared(base, name) && Lookup(base, name).kind == kind
    requires forall i :: 0 <= i < |own| && own[i].name == name ==> own[i].prop.kind == kind
    ensures Declared(Derive(base, className, own), name)
    ensures Lookup(Derive(base, className, own), name).kind == kind
  {
    var s := Derive(base, className, own);
    var n := |base.fields|;
    var k := LastIndex(base, name);
    assert s.fields[k] == base.fields[k];
    FieldDeclared(s, k);
    var j := LastIndex(s, name);
    if j >= n {
      assert s.fields[j] == own[j - n];
    } else {
      assert s.fields[j] == base.fields[j];
      assert j == k;
    }
  }

  /** The value `document._id` reads as. */
  function IdOf(d: Document): Value {
    ValueOf(d.schema, d.inst, "_id")
  }

  /** The value `document.type_` reads as. */
  function TypeOf(d: Document): Value {
    ValueOf(d.schema, d.inst, "type_")
  }

  /** `self._rev == None`, negated: the database has assigned a revision. */
  predicate HasBeenAdded(d: Document) {
    ValueOf(d.schema, d.inst, "_rev") != Null
  }

  /** `Document.__init__()` without data: defaults, then a fresh `_id`
      (the uuid is a parameter), then `type_` kept if truthy and otherwise
      the lower-cased class name. */
  function NewDocument(s: Schema, freshId: string): (r: Result<Document>)
    ensures r.Ok? ==> r.value.schema == s && !r.value.marked
  {
    var blank :- Construct(s);
    var withId :- SetAttr(s, blank, "_id", Str(freshId));
    var t := ValueOf(s, withId, "type_");
    var typed :- SetAttr(s, withId, "type_", if Truthy(t) then t else Str(Lower(s.className)));
    Ok(Document(s, typed, false))
  }

  /** `Document.__init__(document_data=data)`: defaults, then the data imported. */
  function LoadDocument(s: Schema, data: Value): (r: Result<Document>)
    ensures r.Ok? ==> r.value.schema == s && !r.value.marked
  {
    var blank :- Construct(s);
    var inst :- FromDict(s, blank, data);
    Ok(Document(s, inst, false))
  }

  /** `Document.__init__`: no data (`None`) makes a new document. */
  function InitDocument(s: Schema, data: Value, freshId: string): (r: Result<Document>)
    ensures data.Null? ==> r == NewDocument(s, freshId)
    ensures !data.Null? ==> r == LoadDocument(s, data)
  {
    if data.Null? then NewDocument(s, freshId) else LoadDocument(s, data)
  }

  /** For a scalar property the exported value is the value read. */
  lemma ScalarExportIsValue(s: Schema, inst: Instance, name: string)
    requires Declared(s, name) && IsScalarKind(Lookup(s, name).kind)
    ensures ToDict(s, inst).entries[name] == ValueOf(s, inst, name)
  {
  }

  /** A new document of a standard class: it can be built exactly when the
      class's defaults validate; it then has the fresh id, the class's
      `type_` default if truthy and otherwise the lower-cased class name,
      and the default `_rev`, so with the usual `None` default it has not
      been added. */
  lemma NewDocumentFields(s: Schema, freshId: string)
    requires StandardDocument(s)
    ensures NewDocument(s, freshId).Ok? <==> Construct(s).Ok?
    ensures NewDocument(s, freshId).Ok? ==>
              var d := NewDocument(s, freshId).value;
              var t := Lookup(s, "type_").default;
              ValueOf(s, d.inst, "_id") == Str(freshId) &&
              ValueOf(s, d.inst, "type_") == (if Truthy(t) then t else Str(Lower(s.className))) &&
              ValueOf(s, d.inst, "_rev") == Lookup(s, "_rev").default
    ensures NewDocument(s, freshId).Ok? && Lookup(s, "_rev").default == Null ==> !HasBeenAdded(NewDocument(s, freshId).value)
  {
    if Construct(s).Ok? {
      var blank := Construct(s).value;
      ConstructDefaults(s, "_id");
      ConstructDefaults(s, "_rev");
      ConstructDefaults(s, "type_");
      ScalarAssign(s, blank, "_id", Str(freshId));
      var withId := SetAttr(s, blank, "_id", Str(freshId)).value;
      var t := ValueOf(s, withId, "type_");
      assert t == Lookup(s, "type_").default;
      var v := if Truthy(t) then t else Str(Lower(s.className));
      assert ValidateString(0, 0, v) == Pass by {
        NamesFromZero(s);
        ConstructFromDefaults(s, 0, Fresh);
      }
      ScalarAssign(s, withId, "type_", v);
    }
  }

  /** `toJson` before encoding: `_deleted` when marked, then every property
      by its descriptor's export, leaving out `_rev` while it is `None`. */
  function Marshal(d: Document): (r: map<string, Value>)
    ensures r.Keys <= Names(d.schema) + {"_deleted"}
    ensures !Declared(d.schema, "_deleted") ==> ("_deleted" in r <==> d.marked)
    ensures !Declared(d.schema, "_deleted") && d.marked ==> r["_deleted"] == Bool(true)
  {
    var s := d.schema;
    var skipRev := !HasBeenAdded(d);
    var props := map k | k in Names(s) && !(k == "_rev" && skipRev) :: Export(Lookup(s, k), Current(d.inst, k));
    if d.marked then map["_deleted" := Bool(true)] + props else props
  }

  /** Every property other than `_rev` is in the body with its export. */
  lemma MarshalProperty(d: Document, k: string)
    requires k in Names(d.schema) && k != "_rev"
    ensures k in Marshal(d) && Marshal(d)[k] == ToDict(d.schema, d.inst).entries[k]
  {
  }

  /** `_rev` is in the body exactly when the document has been added. */
  lemma MarshalRev(d: Document)
    requires Declared(d.schema, "_rev")
    ensures "_rev" in Marshal(d) <==> HasBeenAdded(d)
    ensures "_rev" in Marshal(d) ==> Marshal(d)["_rev"] == ToDict(d.schema, d.inst).entries["_rev"]
  {
  }

  /** A `_rev` redeclared as a Dict, List or Link property never reads as
      `None`: such a document counts as added, and its body carries `_rev`. */
  lemma NonPlainRevAdded(d: Document)
    requires Declared(d.schema, "_rev")
    requires var k := Lookup(d.schema, "_rev").kind; k.DictKind? || k.ListKind? || k.LinkKind?
    requires Read(d.schema, d.inst, "_rev").Ok?
    ensures HasBeenAdded(d) && "_rev" in Marshal(d)
  {
    MarshalRev(d);
  }

  /** `setMarkedForDelete`. */
  function SetMarkedForDelete(d: Document, flag: bool): (r: Document)
    ensures r.marked == flag && r.schema == d.schema && r.inst == d.inst
  {
    d.(marked := flag)
  }

  /** Marking adds `_deleted: true` to the body and changes nothing else in it. */
  lemma MarkAddsDeleted(d: Document)
    requires !Declared(d.schema, "_deleted")
    ensures var m := Marshal(SetMarkedForDelete(d, true));
            "_deleted" in m && m["_deleted"] == Bool(true) &&
            forall k :: k != "_deleted" ==> (k in m <==> k in Marshal(d)) && (k in m ==> m[k] == Marshal(d)[k])
  {
  }

  /** `document._rev = rev`, as a bulk or single save does. */
  function SetRev(d: Document, rev: string): (r: Result<Document>)
    ensures r.Ok? ==> r.value.schema == d.schema && r.value.marked == d.marked
  {
    var inst :- SetAttr(d.schema, d.inst, "_rev", Str(rev));
    Ok(d.(inst := inst))
  }

  /** Storing a revision in a standard document always succeeds, makes it
      count as added, puts the revision in the body and touches nothing else. */
  lemma SetRevAdds(d: Document, rev: string)
    requires StandardDocument(d.schema)
    ensures SetRev(d, rev).Ok?
    ensures HasBeenAdded(SetRev(d, rev).value)
    ensures "_rev" in Marshal(SetRev(d, rev).value) && Marshal(SetRev(d, rev).value)["_rev"] == Str(rev)
    ensures forall k :: k != "_rev" ==> Current(SetRev(d, rev).value.inst, k) == Current(d.inst, k)
  {
    ScalarAssign(d.schema, d.inst, "_rev", Str(rev));
    ScalarExportIsValue(d.schema, SetRev(d, rev).value.inst, "_rev");
  }

  /** The names an unmarked document's body carries. */
  function BodyNames(d: Document): set<string> {
    if HasBeenAdded(d) then Names(d.schema) else Names(d.schema) - {"_rev"}
  }

  lemma UnmarkedBody(d: Document)
    requires !d.marked && Declared(d.schema, "_rev")
    ensures Marshal(d) == Restrict(ToDict(d.schema, d.inst).entries, BodyNames(d))
  {
  }

  /** An unset `_rev` exports like the one a fresh instance has. */
  lemma UnsetRevExportsAsFresh(s: Schema, x: Instance)
    requires StandardDocument(s) && Lookup(s, "_rev").default == Null && Construct(s).Ok?
    requires ValueOf(s, x, "_rev") == Null
    ensures ToDict(s, Construct(s).value).entries["_rev"] == ToDict(s, x).entries["_rev"]
  {
    ConstructDefaults(s, "_rev");
    ScalarExportIsValue(s, Construct(s).value, "_rev");
    ScalarExportIsValue(s, x, "_rev");
  }

  lemma LoadIsImport(s: Schema, data: Value)
    requires Construct(s).Ok?
    ensures LoadDocument(s, data).Ok? <==> FromDict(s, Construct(s).value, data).Ok?
    ensures LoadDocument(s, data).Ok? ==> LoadDocument(s, data).value.inst == FromDict(s, Construct(s).value, data).value
  {
  }

  /** A stored body loads back: for an unmarked document of a standard class
      without EmbeddedLink properties, whose `_rev` defaults to `None`,
      loading its body yields a document that exports the same values. */
  lemma MarshalLoadRoundTrip(d: Document)
    requires StandardDocument(d.schema) && Lookup(d.schema, "_rev").default == Null
    requires Valid(d.schema, d.inst) && NoEmbedded(d.schema) && Construct(d.schema).Ok?
    requires !d.marked
    ensures LoadDocument(d.schema, Dict(Marshal(d))).Ok?
    ensures ToDict(d.schema, LoadDocument(d.schema, Dict(Marshal(d))).value.inst) == ToDict(d.schema, d.inst)
  {
    UnmarkedBody(d);
    RestrictedLoad(d.schema, d.inst, BodyNames(d));
  }

  /** Loading the exports of `x` restricted to `keep` gives back `x`'s
      exports when `keep` leaves out at most an unset `_rev`. */
  lemma RestrictedLoad(s: Schema, x: Instance, keep: set<string>)
    requires StandardDocument(s) && Lookup(s, "_rev").default == Null
    requires Valid(s, x) && NoEmbedded(s) && Construct(s).Ok?
    requires Names(s) - {"_rev"} <= keep
    requires "_rev" !in keep ==> ValueOf(s, x, "_rev") == Null
    ensures LoadDocument(s, Dict(Restrict(ToDict(s, x).entries, keep))).Ok?
    ensures ToDict(s, LoadDocument(s, Dict(Restrict(ToDict(s, x).entries, keep))).value.inst) == ToDict(s, x)
  {
    ConstructValid(s);
    var y := Construct(s).value;
    if "_rev" !in keep {
      UnsetRevExportsAsFresh(s, x);
    }
    RestrictedImport(s, x, y, keep);
    LoadIsImport(s, Dict(Restrict(ToDict(s, x).entries, keep)));
  }

  /** Importing `x`'s exports on `keep` into `y` reproduces `x`'s exports
      when `x` and `y` export the same `_rev` or `keep` holds it. */
  lemma RestrictedImport(s: Schema, x: Instance, y: Instance, keep: set<string>)
    requires Valid(s, x) && Valid(s, y) && NoEmbedded(s) && Declared(s, "_rev")
    requires Names(s) - {"_rev"} <= keep
    requires "_rev" !in keep ==> ToDict(s, y).entries["_rev"] == ToDict(s, x).entries["_rev"]
    ensures FromDict(s, y, Dict(Restrict(ToDict(s, x).entries, keep))).Ok?
    ensures ToDict(s, FromDict(s, y, Dict(Restrict(ToDict(s, x).entries, keep))).value) == ToDict(s, x)
  {
    var dx := ToDict(s, x).entries;
    var dy := ToDict(s, y).entries;
    PartialRoundTrip(s, x, y, keep);
    var z := FromDict(s, y, Dict(Restrict(dx, keep))).value;
    ToDictKeys(s, x);
    ToDictKeys(s, y);
    ToDictKeys(s, z);
    forall k | k in Names(s) ensures ToDict(s, z).entries[k] == dx[k] {
      if k !in keep {
        assert k == "_rev";
      }
    }
    SameExport(s, z, x);
  }

  lemma SameExport(s: Schema, a: Instance, b: Instance)
    requires forall k :: k in Names(s) ==> ToDict(s, a).entries[k] == ToDict(s, b).entries[k]
    ensures ToDict(s, a) == ToDict(s, b)
  {
  }

  /** The body of a document marked for deletion cannot be loaded back: its
      `_deleted` key is not a declared property. */
  lemma DeletedBodyNotLoadable(d: Document)
    requires !Declared(d.schema, "_deleted") && d.marked && Construct(d.schema).Ok?
    ensures LoadDocument(d.schema, Dict(Marshal(d))) == Err(ValidationError(NoSuchProperty))
  {
    FromDictImports(d.schema, Construct(d.schema).value, Dict(Marshal(d)));
  }
}

=== FILE: instances.dfy ===
/** Schema instances and the descriptor protocol: `__set__` with its
    validation, `Schema.__init__` (defaults), `Schema.instanceFromDict`,
    `Schema.instanceToDict` and each descriptor's `instanceToDict`, and
    `__get__`.

    These operations call one another through nested schemas (a Dict
    property's `__set__` imports a dict into its nested instance; a List
    property builds blank item instances), so they are one mutually
    recursive group, measured by the size of the schema they work on.
 */
module Instances {
  import opened Results
  import opened Values
  import opened Properties
  import opened Validation

  /** The helper object an `EmbeddedLinkProperty` keeps per owning instance. */
  datatype EmbeddedLink = EmbeddedLink(id: Value, document: Value, inflated: bool)

  const NoLink := EmbeddedLink(Null, Null, false)

  /** What `_propertyValues[name]` holds, by descriptor kind. */
  datatype Stored =
    | Scalar(v: Value)                // String, Number, Integer, Boolean: the value as assigned
    | Nested(inst: Instance)          // Dict: the instance of the nested schema class
    | Items(items: seq<Instance>)     // List: the DictPropertyList of item-schema instances
    | Embedded(link: EmbeddedLink)    // EmbeddedLink: the helper object

  /** A schema instance, i.e. its `_propertyValues`. Link properties store nothing. */
  datatype Instance = Instance(values: map<string, Stored>)

  const Fresh := Instance(map[])

  function Current(inst: Instance, name: string): Option<Stored> {
    if name in inst.values then Some(inst.values[name]) else None
  }

  function Store(inst: Instance, name: string, st: Option<Stored>): Instance {
    if st.Some? then Instance(inst.values[name := st.value]) else inst
  }

  // ---------------------------------------------------------------------
  // __set__ and everything it reaches

  /** `descriptor.__set__(instance, v)` given what the instance held before
      (`None` when the name is not yet in `_propertyValues`). `Ok(None)`
      means nothing is stored. */
  function SetProp(p: Property, prior: Option<Stored>, v: Value): Result<Option<Stored>>
    decreases PropSize(p), 0, 0
  {
    match p.kind
    case DictKind(n) =>
      // `_checkForPropertyValue` creates the nested instance on first use,
      // then `instanceFromDict` imports into it
      var cur :- if prior.Some? && prior.value.Nested? then Ok(prior.value.inst) else Construct(n);
      var updated :- FromDict(n, cur, v);
      Ok(Some(Nested(updated)))
    case ListKind(item) =>
      var xs :- MakeList(item, v);
      Ok(Some(Items(xs)))
    case LinkKind(_, _, _) =>
      Ok(prior)
    case EmbeddedLinkKind(cls) =>
      var e := if prior.Some? && prior.value.Embedded? then prior.value.link else NoLink;
      if IsInstanceOf(v, cls) then Ok(Some(Embedded(EmbeddedLink(v.id, v, true))))
      else Ok(Some(Embedded(e.(id := v))))
    case _ =>
      match ValidateScalar(p.kind, v)
      case Pass => Ok(Some(Scalar(v)))
      case Fail(e) => Err(e)
  }

  /** `setattr(instance, name, v)`. A name outside `_properties` is a plain
      attribute and changes no property value. */
  function SetAttr(s: Schema, inst: Instance, name: string, v: Value): Result<Instance>
    decreases SchemaSize(s), 1, 0
  {
    if !Declared(s, name) then Ok(inst)
    else
      var st :- SetProp(Lookup(s, name), Current(inst, name), v);
      Ok(Store(inst, name, st))
  }

  /** `Schema.__init__`: assign every name of `_properties`, in order, its
      descriptor's default. */
  function Construct(s: Schema): Result<Instance>
    decreases SchemaSize(s), 3, 0
  {
    ConstructFrom(s, 0, Fresh)
  }

  function ConstructFrom(s: Schema, i: nat, acc: Instance): Result<Instance>
    requires i <= |s.fields|
    decreases SchemaSize(s), 2, |s.fields| - i
  {
    if i == |s.fields| then Ok(acc)
    else
      var name := s.fields[i].name;
      FieldDeclared(s, i);
      var next :- SetAttr(s, acc, name, Lookup(s, name).default);
      ConstructFrom(s, i + 1, next)
  }

  /** `Schema.instanceFromDict`: a non-dict is ignored; a key that is not in
      `_properties` is an error; every other key is assigned through its
      descriptor. Distinct keys touch distinct stored values, so on success
      the outcome does not depend on the dict's iteration order; the model
      visits declared names in declaration order. */
  function FromDict(s: Schema, inst: Instance, v: Value): Result<Instance>
    decreases SchemaSize(s), 3, 0
  {
    if !v.Dict? then Ok(inst)
    else if exists k :: k in v.entries && !Declared(s, k) then Err(ValidationError(NoSuchProperty))
    else AssignFrom(s, inst, v.entries, 0, inst)
  }

  /** Assign `d[name]` for the names declared at positions `i..`, each
      against the value `inst` held before the import began. */
  function AssignFrom(s: Schema, inst: Instance, d: map<string, Value>, i: nat, acc: Instance): Result<Instance>
    requires i <= |s.fields|
    decreases SchemaSize(s), 2, |s.fields| - i
  {
    if i == |s.fields| then Ok(acc)
    else
      var name := s.fields[i].name;
      FieldDeclared(s, i);
      if name in d then
        var st :- SetProp(Lookup(s, name), Current(inst, name), d[name]);
        AssignFrom(s, inst, d, i + 1, Store(acc, name, st))
      else
        AssignFrom(s, inst, d, i + 1, acc)
  }

  /** `DictPropertyList(value, cls)` as `ListProperty.__set__` builds it:
      `None` (`Null`) is the empty list; anything else is iterated (a string by
      character, a dict by key) and every element goes through the item
      schema; a value Python cannot iterate makes `map` raise `TypeError`. */
  function MakeList(item: Schema, v: Value): Result<seq<Instance>>
    decreases SchemaSize(item), 6, 0
  {
    match v
    case Null => Ok([])
    case _ =>
      var elems :- Elements(v);
      ValidateItems(item, elems)
  }

  /** What iterating a Python value yields. A dict yields its keys; every
      key is a string, and a string is something the item schema's import
      ignores, so a placeholder string stands for each key. */
  function Elements(v: Value): (r: Result<seq<Value>>)
    ensures r.Err? <==> !(v.List? || v.Str? || v.Dict?)
    ensures r.Err? ==> r.error == TypeError
    ensures v.List? ==> r == Ok(v.items)
    ensures v.Str? ==> r.Ok? && |r.value| == |v.s|
    ensures v.Dict? ==> r.Ok? && |r.value| == |v.entries|
  {
    match v
    case List(xs) => Ok(xs)
    case Str(s) => Ok(seq(|s|, i requires 0 <= i < |s| => Str([s[i]])))
    case Dict(m) => Ok(seq(|m|, _ => Str("")))
    case _ => Err(TypeError)
  }

  /** `map(self._validate, xs)`: all elements are validated, in order,
      before anything is stored; the first failure aborts. */
  function ValidateItems(item: Schema, xs: seq<Value>): Result<seq<Instance>>
    decreases SchemaSize(item), 5, |xs|
  {
    if |xs| == 0 then Ok([])
    else
      var first :- ValidateItem(item, xs[0]);
      var rest :- ValidateItems(item, xs[1..]);
      Ok([first] + rest)
  }

  /** `DictPropertyList._validate`: a blank item instance populated from the value. */
  function ValidateItem(item: Schema, x: Value): Result<Instance>
    decreases SchemaSize(item), 4, 0
  {
    var blank :- Construct(item);
    FromDict(item, blank, x)
  }

  // ---------------------------------------------------------------------
  // instanceToDict

  /** `Schema.instanceToDict`: one entry per name of `_properties`, each
      exported by the descriptor the name resolves to. */
  function ToDict(s: Schema, inst: Instance): (r: Value)
    decreases SchemaSize(s), 1
  {
    Dict(map k | k in Names(s) :: Export(Lookup(s, k), Current(inst, k)))
  }

  /** Each descriptor's `instanceToDict`. The fallbacks for a missing stored
      value mirror the lazy creation in `__get__`; an instance built by
      `Construct` never needs them (see `Invariant.ConstructValid`). */
  function Export(p: Property, st: Option<Stored>): Value
    decreases PropSize(p), 0
  {
    match p.kind
    case DictKind(n) =>
      if st.Some? && st.value.Nested? then ToDict(n, st.value.inst)
      else (match Construct(n) case Ok(c) => ToDict(n, c) case Err(_) => Null)
    case ListKind(item) =>
      if st.Some? && st.value.Items? then
        var xs := st.value.items;
        List(seq(|xs|, i requires 0 <= i < |xs| => ToDict(item, xs[i])))
      else List([])
    case LinkKind(_, _, _) => Null
    case EmbeddedLinkKind(_) =>
      if st.Some? && st.value.Embedded? then st.value.link.id else Null
    case _ =>
      if st.Some? && st.value.Scalar? then st.value.v else Null
  }

  // ---------------------------------------------------------------------
  // __get__

  /** What reading `instance.name` yields. A Link property yields the
      `(instance, descriptor)` token; the instance is implicit here. */
  datatype Reading =
    | Plain(v: Value)
    | NestedInstance(inst: Instance)
    | ItemList(items: seq<Instance>)
    | LinkToken(name: string, prop: Property)

  /** `descriptor.__get__(instance, owner)`. */
  function Read(s: Schema, inst: Instance, name: string): Result<Reading> {
    if !Declared(s, name) then Err(AttributeError)
    else
      var p := Lookup(s, name);
      var st := Current(inst, name);
      match p.kind
      case DictKind(n) =>
        if st.Some? && st.value.Nested? then Ok(NestedInstance(st.value.inst))
        else var c :- Construct(n); Ok(NestedInstance(c))
      case ListKind(_) =>
        if st.Some? && st.value.Items? then Ok(ItemList(st.value.items)) else Ok(ItemList([]))
      case LinkKind(_, _, _) => Ok(LinkToken(name, p))
      case EmbeddedLinkKind(_) =>
        var e := if st.Some? && st.value.Embedded? then st.value.link else NoLink;
        Ok(Plain(if e.inflated then e.document else e.id))
      case _ =>
        Ok(Plain(if st.Some? && st.value.Scalar? then st.value.v else Null))
  }

  /** An object the model does not follow: truthy, not a string, hashable,
      and never equal to `None`. */
  const Opaque: Value := Obj(0, {}, Null)

  /** `n` opaque objects. */
  function Opaques(n: nat): (r: seq<Value>)
    ensures |r| == n
  {
    if n == 0 then [] else Opaques(n - 1) + [Opaque]
  }

  /** The value `instance.name` reads as, as far as a comparison with
      `None`, a hash lookup or a string property's validation can tell. A
      `DictPropertyList` is a list of the item instances; a nested instance
      and the `(instance, descriptor)` pair a Link property reads as are
      opaque objects. A reading that raises is `None`. */
  function ValueOf(s: Schema, inst: Instance, name: string): Value {
    match Read(s, inst, name)
    case Ok(Plain(v)) => v
    case Ok(ItemList(items)) => List(Opaques(|items|))
    case Ok(NestedInstance(_)) => Opaque
    case Ok(LinkToken(_, _)) => Opaque
    case Err(_) => Null
  }
}

=== FILE: invariant.dfy ===
/** The shape invariant every constructed instance keeps: each declared,
    non-Link property holds a stored value of its descriptor's shape, scalar
    values pass their validator, nested and item instances are themselves
    well formed. `Schema.__init__` establishes it, and `__set__` and
    `instanceFromDict` preserve it. */
module Invariant {
  import opened Results
  import opened Values
  import opened Properties
  import opened Validation
  import opened Instances

  ghost predicate ValidStored(p: Property, st: Stored)
    decreases PropSize(p)
  {
    match p.kind
    case DictKind(n) => st.Nested? && Valid(n, st.inst)
    case ListKind(item) =>
      && st.Items?
      && (forall i :: 0 <= i < |st.items| ==> Valid(item, st.items[i]))
      && (|st.items| > 0 ==> Construct(item).Ok?)
    case LinkKind(_, _, _) => true
    case EmbeddedLinkKind(_) => st.Embedded?
    case _ => st.Scalar? && ValidateScalar(p.kind, st.v) == Pass
  }

  /** Every stored value of a declared name fits its descriptor. */
  ghost predicate ValidValues(s: Schema, inst: Instance)
    decreases SchemaSize(s), 0
  {
    forall k :: k in inst.values && Declared(s, k) ==> ValidStored(Lookup(s, k), inst.values[k])
  }

  /** Every declared name other than a Link has a stored value. */
  ghost predicate Complete(s: Schema, inst: Instance) {
    forall k :: k in Names(s) ==> k in inst.values || Lookup(s, k).kind.LinkKind?
  }

  ghost predicate Valid(s: Schema, inst: Instance)
    decreases SchemaSize(s), 1
  {
    ValidValues(s, inst) && Complete(s, inst)
  }

  ghost predicate PriorValid(p: Property, prior: Option<Stored>) {
    prior.Some? ==> ValidStored(p, prior.value)
  }

  lemma {:induction false} SetPropValid(p: Property, prior: Option<Stored>, v: Value)
    requires PriorValid(p, prior)
    ensures SetProp(p, prior, v).Ok? ==> PriorValid(p, SetProp(p, prior, v).value)
    ensures SetProp(p, prior, v).Ok? && !p.kind.LinkKind? ==> SetProp(p, prior, v).value.Some?
    decreases PropSize(p), 0, 0
  {
    match p.kind
    case DictKind(n) =>
      if prior.Some? && prior.value.Nested? {
        FromDictValid(n, prior.value.inst, v);
      } else {
        ConstructValid(n);
        if Construct(n).Ok? {
          FromDictValid(n, Construct(n).value, v);
        }
      }
    case ListKind(item) =>
      MakeListValid(item, v);
    case LinkKind(_, _, _) =>
    case EmbeddedLinkKind(_) =>
    case _ =>
  }

  lemma {:induction false} SetAttrValid(s: Schema, inst: Instance, name: string, v: Value)
    requires ValidValues(s, inst)
    ensures SetAttr(s, inst, name, v).Ok? ==> ValidValues(s, SetAttr(s, inst, name, v).value)
    ensures SetAttr(s, inst, name, v).Ok? ==> inst.values.Keys <= SetAttr(s, inst, name, v).value.values.Keys
    ensures SetAttr(s, inst, name, v).Ok? && Declared(s, name) && !Lookup(s, name).kind.LinkKind? ==>
              name in SetAttr(s, inst, name, v).value.values
    decreases SchemaSize(s), 1, 0
  {
    if Declared(s, name) {
      var p := Lookup(s, name);
      SetPropValid(p, Current(inst, name), v);
    }
  }

  lemma {:induction false} ConstructValid(s: Schema)
    ensures Construct(s).Ok? ==> Valid(s, Construct(s).value)
    decreases SchemaSize(s), 3, 0
  {
    ConstructFromValid(s, 0, Fresh);
  }

  lemma {:induction false} ConstructFromValid(s: Schema, i: nat, acc: Instance)
    requires i <= |s.fields|
    requires ValidValues(s, acc)
    requires forall j :: 0 <= j < i ==> s.fields[j].name in acc.values || Lookup(s, s.fields[j].name).kind.LinkKind?
    ensures ConstructFrom(s, i, acc).Ok? ==> Valid(s, ConstructFrom(s, i, acc).value)
    decreases SchemaSize(s), 2, |s.fields| - i
  {
    if i == |s.fields| {
      forall k | k in Names(s) ensures k in acc.values || Lookup(s, k).kind.LinkKind? {
        var j :| 0 <= j < |s.fields| && s.fields[j].name == k;
      }
    } else {
      var name := s.fields[i].name;
      FieldDeclared(s, i);
      SetAttrValid(s, acc, name, Lookup(s, name).default);
      var r := SetAttr(s, acc, name, Lookup(s, name).default);
      if r.Ok? {
        ConstructFromValid(s, i + 1, r.value);
      }
    }
  }

  lemma {:induction false} FromDictValid(s: Schema, inst: Instance, v: Value)
    requires Valid(s, inst)
    ensures FromDict(s, inst, v).Ok? ==> Valid(s, FromDict(s, inst, v).value)
    decreases SchemaSize(s), 3, 0
  {
    if v.Dict? && !(exists k :: k in v.entries && !Declared(s, k)) {
      AssignFromValid(s, inst, v.entries, 0, inst);
    }
  }

  lemma {:induction false} AssignFromValid(s: Schema, inst: Instance, d: map<string, Value>, i: nat, acc: Instance)
    requires i <= |s.fields|
    requires Valid(s, inst) && Valid(s, acc)
    ensures AssignFrom(s, inst, d, i, acc).Ok? ==> Valid(s, AssignFrom(s, inst, d, i, acc).value)
    decreases SchemaSize(s), 2, |s.fields| - i
  {
    if i < |s.fields| {
      var name := s.fields[i].name;
      FieldDeclared(s, i);
      if name in d {
        var p := Lookup(s, name);
        SetPropValid(p, Current(inst, name), d[name]);
        var r := SetProp(p, Current(inst, name), d[name]);
        if r.Ok? {
          var next := Store(acc, name, r.value);
          assert Valid(s, next) by {
            assert ValidValues(s, next);
            forall k | k in Names(s) ensures k in next.values || Lookup(s, k).kind.LinkKind? {
              assert k in acc.values || Lookup(s, k).kind.LinkKind?;
            }
          }
          AssignFromValid(s, inst, d, i + 1, next);
        }
      } else {
        AssignFromValid(s, inst, d, i + 1, acc);
      }
    }
  }

  lemma {:induction false} MakeListValid(item: Schema, v: Value)
    ensures MakeList(item, v).Ok? ==> forall i :: 0 <= i < |MakeList(item, v).value| ==> Valid(item, MakeList(item, v).value[i])
    ensures MakeList(item, v).Ok? && |MakeList(item, v).value| > 0 ==> Construct(item).Ok?
    decreases SchemaSize(item), 6, 0
  {
    if !v.Null? && Elements(v).Ok? {
      ValidateItemsValid(item, Elements(v).value);
    }
  }

  lemma {:induction false} ValidateItemsValid(item: Schema, xs: seq<Value>)
    ensures ValidateItems(item, xs).Ok? ==> forall i :: 0 <= i < |ValidateItems(item, xs).value| ==> Valid(item, ValidateItems(item, xs).value[i])
    ensures ValidateItems(item, xs).Ok? && |ValidateItems(item, xs).value| > 0 ==> Construct(item).Ok?
    decreases SchemaSize(item), 5, |xs|
  {
    if |xs| > 0 {
      ValidateItemValid(item, xs[0]);
      ValidateItemsValid(item, xs[1..]);
    }
  }

  lemma {:induction false} ValidateItemValid(item: Schema, x: Value)
    ensures ValidateItem(item, x).Ok? ==> Valid(item, ValidateItem(item, x).value) && Construct(item).Ok?
    decreases SchemaSize(item), 4, 0
  {
    ConstructValid(item);
    if Construct(item).Ok? {
      FromDictValid(item, Construct(item).value, x);
    }
  }
}

=== FILE: jsonschema.dfy ===
/** `schemaToDict`: the JSON Schema (draft 03) description a schema class
    exports. Non-link properties go under "properties"; Link properties
    become hyper-schema "links" entries; a root schema names the draft and
    its own id. A Number or Integer property anywhere in the schema makes
    the export raise `NameError`: their `schemaToDict` writes to a dict it
    never created. */
module JsonSchema {
  import opened Results
  import opened Values
  import opened Properties
  import opened Validation

  const Draft03 := "http://json-schema.org/draft-03/schema#"

  /** Some property reachable from `s` is a Number or Integer property. */
  ghost predicate NumberReachable(s: Schema)
    decreases SchemaSize(s), 1
  {
    exists k :: k in Names(s) && PropNumberReachable(Lookup(s, k))
  }

  ghost predicate PropNumberReachable(p: Property)
    decreases PropSize(p), 0
  {
    match p.kind
    case NumberKind(_, _) => true
    case IntegerKind(_, _) => true
    case DictKind(n) => NumberReachable(n)
    case ListKind(item) => NumberReachable(item)
    case _ => false
  }

  /** `str(v)` for the values a default is given as; a float or container
      default is passed through unrendered. Only truthy defaults reach it,
      so the `None` case is there to keep the function total. */
  function StrOf(v: Value): (r: Value)
    ensures v.Str? ==> r == v
    ensures v.Bool? ==> r == Str(if v.b then "True" else "False")
    ensures v.Int? ==> r.Str? && |r.s| > 0 && (r.s[0] == '-' <==> v.i < 0) &&
                       forall k :: (if v.i < 0 then 1 else 0) <= k < |r.s| ==> '0' <= r.s[k] <= '9'
    ensures v.Int? && v.i >= 0 ==> r.Str? && DigitsValue(r.s) == v.i
    ensures v.Int? && v.i < 0 ==> r.Str? && |r.s| >= 2 && DigitsValue(r.s[1..]) == -v.i
  {
    match v
    case Null => Str("None")
    case Bool(b) => Str(if b then "True" else "False")
    case Int(i) => Str(Decimal(i))
    case Str(s) => v
    case _ => v
  }

  /** `Property.schemaToDict`: `required` only when the flag is set. */
  function RequiredPart(p: Property): (m: map<string, Value>)
    ensures "required" in m <==> p.required
    ensures m.Keys <= {"required"}
  {
    if p.required then map["required" := Bool(true)] else map[]
  }

  /** The hyper-schema link a Link property named `name` exports. */
  function LinkSchema(name: string, linkedClass: string): Value {
    Dict(map["href" := Str("/" + name), "rel" := Str(name), "$targetSchema" := Str(Lower(linkedClass) + "#")])
  }

  /** `StringProperty.schemaToDict`: the type, plus each of `default`,
      `minLength` and `maxLength` only when it is truthy. */
  function StringSchema(p: Property): (m: map<string, Value>)
    requires p.kind.StringKind?
    ensures "type" in m && m["type"] == Str("string")
    ensures "required" in m <==> p.required
    ensures "default" in m <==> Truthy(p.default)
    ensures "default" in m ==> m["default"] == StrOf(p.default)
    ensures "minLength" in m <==> p.kind.minLength != 0
    ensures "maxLength" in m <==> p.kind.maxLength != 0
    ensures "minLength" in m ==> m["minLength"] == Int(p.kind.minLength)
    ensures "maxLength" in m ==> m["maxLength"] == Int(p.kind.maxLength)
    ensures m.Keys <= {"required", "type", "default", "minLength", "maxLength"}
  {
    var m := RequiredPart(p)["type" := Str("string")];
    var m := if Truthy(p.default) then m["default" := StrOf(p.default)] else m;
    var m := if p.kind.minLength != 0 then m["minLength" := Int(p.kind.minLength)] else m;
    if p.kind.maxLength != 0 then m["maxLength" := Int(p.kind.maxLength)] else m
  }

  /** Each descriptor's `schemaToDict`, for the property named `name`. */
  function PropSchema(name: string, p: Property): (r: Result<Value>)
    ensures r.Err? <==> PropNumberReachable(p)
    ensures r.Err? ==> r.error == NameError
    ensures r.Ok? ==> r.value.Dict?
    decreases PropSize(p), 0
  {
    match p.kind
    case StringKind(_, _) => Ok(Dict(StringSchema(p)))
    case NumberKind(_, _) => Err(NameError)
    case IntegerKind(_, _) => Err(NameError)
    case BooleanKind => Ok(Dict(map["type" := Str("boolean")]))
    case DictKind(n) => SchemaToDict(n)
    case ListKind(item) =>
      var d :- SchemaToDict(item);
      Ok(Dict(map["items" := d]))
    case LinkKind(cls, _, _) => Ok(LinkSchema(name, cls))
    case EmbeddedLinkKind(cls) =>
      Ok(Dict(RequiredPart(p)["type" := List([Dict(map["$ref" := Str(Lower(cls) + "#")]), Str("string")])]))
  }

  /** The links the loop collects from position `i` on, in declaration
      order (a redeclared Link name is visited once per declaration). */
  function LinksFrom(s: Schema, i: nat): seq<Value>
    requires i <= |s.fields|
    decreases |s.fields| - i
  {
    if i == |s.fields| then []
    else
      var name := s.fields[i].name;
      FieldDeclared(s, i);
      var p := Lookup(s, name);
      (if p.kind.LinkKind? then [LinkSchema(name, p.kind.linkedClass)] else []) + LinksFrom(s, i + 1)
  }

  /** The property loop of `Schema.schemaToDict`, from position `i`, with
      the properties and links gathered so far; the first Number or Integer
      property met raises. */
  function Collect(s: Schema, i: nat, props: map<string, Value>, links: seq<Value>): (r: Result<(map<string, Value>, seq<Value>)>)
    requires i <= |s.fields|
    ensures r.Err? <==> exists k :: k in NamesFrom(s, i) && Declared(s, k) && PropNumberReachable(Lookup(s, k))
    ensures r.Err? ==> r.error == NameError
    decreases SchemaSize(s), 2, |s.fields| - i
  {
    if i == |s.fields| then Ok((props, links))
    else
      var name := s.fields[i].name;
      FieldDeclared(s, i);
      NamesFromStep(s, i);
      var p := Lookup(s, name);
      if p.kind.LinkKind? then
        Collect(s, i + 1, props, links + [LinkSchema(name, p.kind.linkedClass)])
      else
        var d :- PropSchema(name, p);
        Collect(s, i + 1, props[name := d], links)
  }

  /** `Schema.schemaToDict`. */
  function SchemaToDict(s: Schema): (r: Result<Value>)
    ensures r.Err? <==> NumberReachable(s)
    ensures r.Err? ==> r.error == NameError
    decreases SchemaSize(s), 3
  {
    NamesFromZero(s);
    var c :- Collect(s, 0, map[], []);
    var top := map["type" := Str("object"), "properties" := Dict(c.0)];
    var top := if s.isRoot then top["$schema" := Str(Draft03)]["id" := Str(Lower(s.className))] else top;
    var top := if |c.1| > 0 then top["links" := List(c.1)] else top;
    Ok(Dict(top))
  }

  /** The non-link names declared at positions `i` and after. */
  function PropertyNamesFrom(s: Schema, i: nat): set<string> {
    set k | k in NamesFrom(s, i) && Declared(s, k) && !Lookup(s, k).kind.LinkKind?
  }

  /** The loop gathers every Link declaration's link, in declaration order. */
  lemma {:induction false} CollectLinks(s: Schema, i: nat, props: map<string, Value>, links: seq<Value>)
    requires i <= |s.fields|
    requires Collect(s, i, props, links).Ok?
    ensures Collect(s, i, props, links).value.1 == links + LinksFrom(s, i)
    decreases |s.fields| - i
  {
    if i < |s.fields| {
      var name := s.fields[i].name;
      CollectStep(s, i, props, links);
      var p := Lookup(s, name);
      if p.kind.LinkKind? {
        var link := LinkSchema(name, p.kind.linkedClass);
        CollectLinks(s, i + 1, props, links + [link]);
        assert LinksFrom(s, i) == [link] + LinksFrom(s, i + 1);
        assert links + [link] + LinksFrom(s, i + 1) == links + LinksFrom(s, i);
      } else {
        CollectLinks(s, i + 1, props[name := PropSchema(name, p).value], links);
        assert LinksFrom(s, i) == LinksFrom(s, i + 1);
      }
    }
  }

  /** One step of the loop: a Link declaration appends its link, any other
      declaration records its schema under its name. */
  lemma CollectStep(s: Schema, i: nat, props: map<string, Value>, links: seq<Value>)
    requires i < |s.fields|
    requires Collect(s, i, props, links).Ok?
    ensures Declared(s, s.fields[i].name)
    ensures var name := s.fields[i].name;
            var p := Lookup(s, name);
            p.kind.LinkKind? ==>
              Collect(s, i, props, links) == Collect(s, i + 1, props, links + [LinkSchema(name, p.kind.linkedClass)])
    ensures var name := s.fields[i].name;
            var p := Lookup(s, name);
            !p.kind.LinkKind? ==>
              PropSchema(name, p).Ok? && Collect(s, i, props, links) == Collect(s, i + 1, props[name := PropSchema(name, p).value], links)
  {
    FieldDeclared(s, i);
  }

  /** The loop gathers, for every non-link name, the schema of the
      descriptor the name resolves to, and nothing else. */
  lemma {:induction false} CollectProperties(s: Schema, i: nat, props: map<string, Value>, links: seq<Value>)
    requires i <= |s.fields|
    requires Collect(s, i, props, links).Ok?
    ensures Collect(s, i, props, links).value.0.Keys == props.Keys + PropertyNamesFrom(s, i)
    ensures forall k :: k in PropertyNamesFrom(s, i) ==>
              PropSchema(k, Lookup(s, k)).Ok? && Collect(s, i, props, links).value.0[k] == PropSchema(k, Lookup(s, k)).value
    ensures forall k :: k in props && k !in NamesFrom(s, i) ==> Collect(s, i, props, links).value.0[k] == props[k]
    decreases |s.fields| - i
  {
    if i < |s.fields| {
      var name := s.fields[i].name;
      CollectStep(s, i, props, links);
      NamesFromStep(s, i);
      PropertyNamesStep(s, i);
      var p := Lookup(s, name);
      if p.kind.LinkKind? {
        CollectProperties(s, i + 1, props, links + [LinkSchema(name, p.kind.linkedClass)]);
      } else {
        var d := PropSchema(name, p).value;
        CollectProperties(s, i + 1, props[name := d], links);
        var r := Collect(s, i, props, links).value;
        forall k | k in PropertyNamesFrom(s, i)
          ensures r.0[k] == PropSchema(k, Lookup(s, k)).value
        {
          if k != name { assert k in PropertyNamesFrom(s, i + 1); }
        }
      }
    }
  }

  /** One step of the loop adds the name at position `i` to the non-link
      names exactly when it resolves to a non-link descriptor. */
  lemma PropertyNamesStep(s: Schema, i: nat)
    requires i < |s.fields|
    ensures Declared(s, s.fields[i].name)
    ensures Lookup(s, s.fields[i].name).kind.LinkKind? ==> PropertyNamesFrom(s, i) == PropertyNamesFrom(s, i + 1)
    ensures !Lookup(s, s.fields[i].name).kind.LinkKind? ==>
              PropertyNamesFrom(s, i) == {s.fields[i].name} + PropertyNamesFrom(s, i + 1)
  {
    FieldDeclared(s, i);
    NamesFromStep(s, i);
  }

  /** The shape of the exported schema: "type" is "object"; "properties"
      holds one entry per non-link name, the schema of the descriptor the
      name resolves to; "links" is present exactly when there are links;
      "$schema" and "id" exactly when the schema is a root. */
  lemma SchemaToDictShape(s: Schema)
    requires SchemaToDict(s).Ok?
    ensures var e := SchemaToDict(s).value.entries;
            e.Keys == {"type", "properties"} + (if s.isRoot then {"$schema", "id"} else {}) +
                      (if |LinksFrom(s, 0)| > 0 then {"links"} else {})
    ensures SchemaToDict(s).value.entries["type"] == Str("object")
    ensures s.isRoot ==>
              SchemaToDict(s).value.entries["$schema"] == Str(Draft03) &&
              SchemaToDict(s).value.entries["id"] == Str(Lower(s.className))
    ensures |LinksFrom(s, 0)| > 0 ==> SchemaToDict(s).value.entries["links"] == List(LinksFrom(s, 0))
  {
    SchemaToDictKeys(s);
    SchemaToDictEntries(s);
  }

  lemma SchemaToDictKeys(s: Schema)
    requires SchemaToDict(s).Ok?
    ensures var e := SchemaToDict(s).value.entries;
            e.Keys == {"type", "properties"} + (if s.isRoot then {"$schema", "id"} else {}) +
                      (if |LinksFrom(s, 0)| > 0 then {"links"} else {})
  {
    CollectLinks(s, 0, map[], []);
  }

  lemma SchemaToDictEntries(s: Schema)
    requires SchemaToDict(s).Ok?
    ensures "type" in SchemaToDict(s).value.entries && SchemaToDict(s).value.entries["type"] == Str("object")
    ensures s.isRoot ==>
              "$schema" in SchemaToDict(s).value.entries && "id" in SchemaToDict(s).value.entries &&
              SchemaToDict(s).value.entries["$schema"] == Str(Draft03) &&
              SchemaToDict(s).value.entries["id"] == Str(Lower(s.className))
    ensures |LinksFrom(s, 0)| > 0 ==>
              "links" in SchemaToDict(s).value.entries && SchemaToDict(s).value.entries["links"] == List(LinksFrom(s, 0))
  {
    CollectLinks(s, 0, map[], []);
  }

  /** The "properties" entry: one per non-link name, each the schema of
      the descriptor the name resolves to. */
  lemma SchemaToDictProperties(s: Schema)
    requires SchemaToDict(s).Ok?
    ensures var e := SchemaToDict(s).value.entries;
            "properties" in e && e["properties"].Dict? &&
            e["properties"].entries.Keys == PropertyNamesFrom(s, 0)
    ensures forall k :: k in PropertyNamesFrom(s, 0) ==>
              PropSchema(k, Lookup(s, k)).Ok? &&
              SchemaToDict(s).value.entries["properties"].entries[k] == PropSchema(k, Lookup(s, k)).value
  {
    CollectProperties(s, 0, map[], []);
  }

  /** The length bounds a String property exports are the ones its
      validator enforces: a non-empty string passes `_validate` exactly
      when it meets every exported bound. */
  lemma StringSchemaMatchesValidator(name: string, p: Property, v: string)
    requires p.kind.StringKind? && |v| > 0
    ensures var d := PropSchema(name, p).value.entries;
            ValidateString(p.kind.minLength, p.kind.maxLength, Str(v)) == Pass <==>
              ("minLength" in d ==> |v| >= d["minLength"].i) && ("maxLength" in d ==> |v| <= d["maxLength"].i)
  {
  }

  /** A link's `$targetSchema` is the id of the linked root schema, as a
      fragment reference. */
  lemma LinkTargetsSchemaId(name: string, p: Property, target: Schema)
    requires p.kind.LinkKind? && target.isRoot && target.className == p.kind.linkedClass
    requires SchemaToDict(target).Ok?
    ensures PropSchema(name, p).value.entries["$targetSchema"] == Str(SchemaToDict(target).value.entries["id"].s + "#")
  {
  }

  /** An EmbeddedLink property's schema admits either the linked root
      schema, by its id, or a plain string id. */
  lemma EmbeddedRefsSchemaId(name: string, p: Property, target: Schema)
    requires p.kind.EmbeddedLinkKind? && target.isRoot && target.className == p.kind.linkedClass
    requires SchemaToDict(target).Ok?
    ensures PropSchema(name, p).value.entries["type"] ==
              List([Dict(map["$ref" := Str(SchemaToDict(target).value.entries["id"].s + "#")]), Str("string")])
  {
  }

  /** Which descriptors carry `required`: String and EmbeddedLink export
      it when set; Boolean, Dict, List and Link never do. */
  lemma RequiredExported(name: string, p: Property)
    requires PropSchema(name, p).Ok?
    ensures (p.kind.StringKind? || p.kind.EmbeddedLinkKind?) ==>
              ("required" in PropSchema(name, p).value.entries <==> p.required)
    ensures p.kind.BooleanKind? || p.kind.DictKind? || p.kind.ListKind? || p.kind.LinkKind? ==>
              "required" !in PropSchema(name, p).value.entries
  {
    if p.kind.DictKind? {
      SchemaToDictKeys(p.kind.nested);
    }
  }
}

=== FILE: links.dfy ===
/** Links between documents: the reverse Link property a `LinkProperty`
    declaration wires onto its target class, the `LinkDocument` class, and
    `Database.addLinks`, which queues the documents not yet in the database
    and a pair of link documents per target. */
module Links {
  import opened Results
  import opened Values
  import opened Properties
  import opened Validation
  import opened Instances
  import opened Descriptors
  import opened Documents
  import opened Sequences

  // ---------------------------------------------------------------------
  // Reverse links

  /** The link type of an automatically added reverse property. */
  function ReverseType(linkType: string): (t: string)
    ensures t == "one_to_one" <==> linkType == "one_to_one" || linkType == "one_to_many"
    ensures t != "one_to_one" ==> t == "many_to_many"
  {
    if linkType == "one_to_one" || linkType == "one_to_many" then "one_to_one" else "many_to_many"
  }

  /** Reversing twice gives the same type as reversing once. */
  lemma ReverseTypeStable(linkType: string)
    ensures ReverseType(ReverseType(linkType)) == ReverseType(linkType)
  {
  }

  /** `LinkProperty.__init__` as written: when `reverse` is a non-empty name
      the target class (with attributes `targetAttrs`) lacks, that attribute
      is set to a new Link property. The new property links to
      `self.__class__`, the descriptor class `LinkProperty`, and its
      `reverse` is `self._name`, which is still `None` while the class body
      runs. */
  function ReverseLinkAsWritten(targetAttrs: set<string>, p: Property): (r: Option<(string, Property)>)
    requires p.kind.LinkKind?
    ensures r.Some? <==> p.kind.reverse.Some? && |p.kind.reverse.value| > 0 && p.kind.reverse.value !in targetAttrs
    ensures r.Some? ==> (r.value.0 == p.kind.reverse.value &&
                         r.value.1 == Property(false, Null, LinkKind("LinkProperty", ReverseType(p.kind.linkType), None)))
  {
    match p.kind.reverse
    case Some(rev) =>
      if |rev| > 0 && rev !in targetAttrs then
        Some((rev, Property(false, Null, LinkKind("LinkProperty", ReverseType(p.kind.linkType), None))))
      else None
    case None => None
  }

  /** The reverse property as evidently intended: it links back to the
      class that declared the forward property, and names that property as
      its own reverse. */
  function ReverseLink(ownerClass: string, forwardName: string, targetAttrs: set<string>, p: Property): (r: Option<(string, Property)>)
    requires p.kind.LinkKind?
    ensures r.Some? <==> p.kind.reverse.Some? && |p.kind.reverse.value| > 0 && p.kind.reverse.value !in targetAttrs
  {
    match p.kind.reverse
    case Some(rev) =>
      if |rev| > 0 && rev !in targetAttrs then
        Some((rev, Property(false, Null, LinkKind(ownerClass, ReverseType(p.kind.linkType), Some(forwardName)))))
      else None
    case None => None
  }

  /** The intended reverse wiring closes the pair: the reverse property
      points back at the declaring class through the forward name, and
      wiring the reverse property in turn adds nothing, because the forward
      name already exists on the declaring class. Declaring the link again
      adds nothing either, since the target now has the attribute. */
  lemma ReverseLinkCloses(ownerClass: string, forwardName: string, ownerAttrs: set<string>, targetAttrs: set<string>, p: Property)
    requires p.kind.LinkKind? && forwardName in ownerAttrs
    requires ReverseLink(ownerClass, forwardName, targetAttrs, p).Some?
    ensures var (rev, q) := ReverseLink(ownerClass, forwardName, targetAttrs, p).value;
            q.kind.linkedClass == ownerClass && q.kind.reverse == Some(forwardName) &&
            q.kind.linkType == ReverseType(p.kind.linkType) &&
            ReverseLink(p.kind.linkedClass, rev, ownerAttrs, q).None? &&
            ReverseLink(ownerClass, forwardName, targetAttrs + {rev}, p).None?
  {
  }

  /** As written the reverse property has lost both ends: `Pet` declaring
      `owner` as a one-to-many link to `Person` with reverse `pets` gives
      `Person.pets` a link to the descriptor class with no reverse name,
      where a link back to `Pet` through `owner` was meant. */
  lemma ReverseLinkCounterexample()
    ensures var p := Property(false, Null, LinkKind("Person", "one_to_many", Some("pets")));
            ReverseLinkAsWritten({}, p) == Some(("pets", Property(false, Null, LinkKind("LinkProperty", "one_to_one", None)))) &&
            ReverseLink("Pet", "owner", {}, p) == Some(("pets", Property(false, Null, LinkKind("Pet", "one_to_one", Some("owner")))))
  {
  }

  // ---------------------------------------------------------------------
  // LinkDocument

  /** A plain `StringProperty()`. */
  const PlainString := Property(false, Null, StringKind(0, 0))

  /** `class LinkDocument(Document)`. */
  const LinkDocumentClass := Schema("LinkDocument", true, [
    Field("_id", Bookkeeping), Field("_rev", Bookkeeping), Field("type_", Bookkeeping),
    Field("type_", Property(false, Str("_link"), StringKind(0, 0))),
    Field("name", PlainString),
    Field("from_type", PlainString),
    Field("to_type", PlainString),
    Field("from_id", PlainString),
    Field("to_id", PlainString)
  ])

  /** A class all of whose declarations are bound-free String properties
      with acceptable defaults, and which declares the names a link
      document is given, with `_rev` defaulting to `None` and `type_` to
      `"_link"`. */
  predicate LinkClass(s: Schema) {
    (forall i :: 0 <= i < |s.fields| ==> s.fields[i].prop.kind == StringKind(0, 0) && StringLike(s.fields[i].prop.default)) &&
    Declared(s, "_id") && Declared(s, "_rev") && Declared(s, "type_") &&
    Declared(s, "name") && Declared(s, "from_id") && Declared(s, "from_type") && Declared(s, "to_id") && Declared(s, "to_type") &&
    Lookup(s, "_rev").default == Null && Lookup(s, "type_").default == Str("_link")
  }

  lemma LinkClassLookup(s: Schema, k: string)
    requires LinkClass(s) && Declared(s, k)
    ensures Lookup(s, k).kind == StringKind(0, 0) && StringLike(Lookup(s, k).default)
  {
    var j := LastIndex(s, k);
  }

  /** `LinkDocument` is such a class. */
  lemma LinkDocumentClassShape()
    ensures LinkClass(LinkDocumentClass)
  {
    var s := LinkDocumentClass;
    FieldDeclared(s, 0); FieldDeclared(s, 1); FieldDeclared(s, 3); FieldDeclared(s, 4);
    FieldDeclared(s, 5); FieldDeclared(s, 6); FieldDeclared(s, 7); FieldDeclared(s, 8);
    LinkDocumentLastRev();
    LinkDocumentLastType();
  }

  lemma LinkDocumentLastRev()
    ensures Declared(LinkDocumentClass, "_rev") && LastIndex(LinkDocumentClass, "_rev") == 1
  {
    var s := LinkDocumentClass;
    FieldDeclared(s, 1);
    var k := LastIndex(s, "_rev");
    assert forall j :: 1 < j < |s.fields| ==> s.fields[j].name != "_rev";
  }

  lemma LinkDocumentLastType()
    ensures Declared(LinkDocumentClass, "type_") && LastIndex(LinkDocumentClass, "type_") == 3
  {
    var s := LinkDocumentClass;
    FieldDeclared(s, 3);
    var k := LastIndex(s, "type_");
    assert forall j :: 3 < j < |s.fields| ==> s.fields[j].name != "type_";
  }

  /** A class like `LinkDocument` is a standard document class whose
      instances can always be built. */
  lemma LinkClassStandard(s: Schema)
    requires LinkClass(s)
    ensures StandardDocument(s) && Construct(s).Ok?
  {
    LinkClassLookup(s, "_id");
    LinkClassLookup(s, "_rev");
    LinkClassLookup(s, "type_");
    forall k | k in Names(s) ensures IsScalarKind(Lookup(s, k).kind) {
      LinkClassLookup(s, k);
    }
    forall k | k in Names(s) && IsScalarKind(Lookup(s, k).kind)
      ensures ValidateScalar(Lookup(s, k).kind, Lookup(s, k).default) == Pass
    {
      LinkClassLookup(s, k);
    }
    ConstructFailsOnBadDefault(s);
  }

  /** `setattr(document, name, v)`. */
  function Assign(d: Document, name: string, v: Value): (r: Result<Document>)
    ensures r.Ok? ==> r.value.schema == d.schema && r.value.marked == d.marked
  {
    var inst :- SetAttr(d.schema, d.inst, name, v);
    Ok(d.(inst := inst))
  }

  /** `None` or the name. */
  function NameValue(o: Option<string>): (v: Value)
    ensures StringLike(v)
  {
    match o
    case Some(n) => Str(n)
    case None => Null
  }

  /** Assigning one field of a link document stores the value as given,
      exactly when it is string-like, and touches nothing else. */
  lemma AssignField(d: Document, name: string, v: Value)
    requires LinkClass(d.schema) && Declared(d.schema, name)
    ensures Assign(d, name, v).Ok? <==> StringLike(v)
    ensures Assign(d, name, v).Ok? ==> Current(Assign(d, name, v).value.inst, name) == Some(Scalar(v))
    ensures Assign(d, name, v).Ok? ==>
              forall k :: k != name ==> Current(Assign(d, name, v).value.inst, k) == Current(d.inst, k)
  {
    LinkClassLookup(d.schema, name);
    ScalarAssign(d.schema, d.inst, name, v);
  }

  /** On a link class a declared name reads as the scalar stored for it. */
  lemma LinkValue(s: Schema, inst: Instance, k: string)
    requires LinkClass(s) && Declared(s, k)
    ensures ValueOf(s, inst, k) == (match Current(inst, k) case Some(Scalar(v)) => v case _ => Null)
  {
    LinkClassLookup(s, k);
  }

  /** `setattr` of each `(name, value)` in turn; the first failure aborts. */
  function AssignAll(d: Document, xs: seq<(string, Value)>): (r: Result<Document>)
    ensures r.Ok? ==> r.value.schema == d.schema && r.value.marked == d.marked
    decreases |xs|
  {
    if |xs| == 0 then Ok(d)
    else
      var d' :- Assign(d, xs[0].0, xs[0].1);
      AssignAll(d', xs[1..])
  }

  function AssignedNames(xs: seq<(string, Value)>): set<string> {
    set i | 0 <= i < |xs| :: xs[i].0
  }

  /** On a link class, assigning distinct declared names succeeds exactly
      when every value is string-like; each name then holds its value and
      every other name is unchanged. */
  lemma AssignAllFields(d: Document, xs: seq<(string, Value)>)
    requires LinkClass(d.schema)
    requires forall i :: 0 <= i < |xs| ==> Declared(d.schema, xs[i].0)
    requires forall i, j :: 0 <= i < j < |xs| ==> xs[i].0 != xs[j].0
    ensures AssignAll(d, xs).Ok? <==> forall i :: 0 <= i < |xs| ==> StringLike(xs[i].1)
    ensures AssignAll(d, xs).Ok? ==>
              forall i :: 0 <= i < |xs| ==> Current(AssignAll(d, xs).value.inst, xs[i].0) == Some(Scalar(xs[i].1))
    ensures AssignAll(d, xs).Ok? ==>
              forall k :: k !in AssignedNames(xs) ==> Current(AssignAll(d, xs).value.inst, k) == Current(d.inst, k)
  {
    AssignAllSucceeds(d, xs);
    if AssignAll(d, xs).Ok? {
      AssignAllStores(d, xs);
    }
  }

  lemma {:induction false} AssignAllSucceeds(d: Document, xs: seq<(string, Value)>)
    requires LinkClass(d.schema)
    requires forall i :: 0 <= i < |xs| ==> Declared(d.schema, xs[i].0)
    ensures AssignAll(d, xs).Ok? <==> forall i :: 0 <= i < |xs| ==> StringLike(xs[i].1)
    decreases |xs|
  {
    if |xs| > 0 {
      AssignField(d, xs[0].0, xs[0].1);
      var rest := xs[1..];
      assert forall i :: 0 <= i < |rest| ==> rest[i] == xs[i + 1];
      if StringLike(xs[0].1) {
        var d' := Assign(d, xs[0].0, xs[0].1).value;
        AssignAllSucceeds(d', rest);
        if !AssignAll(d, xs).Ok? {
          var i :| 0 <= i < |rest| && !StringLike(rest[i].1);
          assert !StringLike(xs[i + 1].1);
        }
      }
    }
  }

  lemma {:induction false} AssignAllStores(d: Document, xs: seq<(string, Value)>)
    requires LinkClass(d.schema)
    requires forall i :: 0 <= i < |xs| ==> Declared(d.schema, xs[i].0)
    requires forall i, j :: 0 <= i < j < |xs| ==> xs[i].0 != xs[j].0
    requires AssignAll(d, xs).Ok?
    ensures forall i :: 0 <= i < |xs| ==> Current(AssignAll(d, xs).value.inst, xs[i].0) == Some(Scalar(xs[i].1))
    ensures forall k :: k !in AssignedNames(xs) ==> Current(AssignAll(d, xs).value.inst, k) == Current(d.inst, k)
    decreases |xs|
  {
    if |xs| > 0 {
      AssignField(d, xs[0].0, xs[0].1);
      var d' := Assign(d, xs[0].0, xs[0].1).value;
      var rest := xs[1..];
      assert forall i :: 0 <= i < |rest| ==> rest[i] == xs[i + 1];
      var r := AssignAll(d, xs).value;
      assert r == AssignAll(d', rest).value;
      AssignAllStores(d', rest);
      assert xs[0].0 !in AssignedNames(rest) by {
        forall j | 0 <= j < |rest| ensures rest[j].0 != xs[0].0 {
          assert rest[j] == xs[j + 1];
        }
      }
      forall i | 0 <= i < |xs| ensures Current(r.inst, xs[i].0) == Some(Scalar(xs[i].1)) {
        if i > 0 {
          assert xs[i] == rest[i - 1];
        }
      }
      forall k | k !in AssignedNames(xs) ensures Current(r.inst, k) == Current(d.inst, k) {
        assert k != xs[0].0;
      }
    }
  }

  /** The values `addLinks` gives a link document: the link's name, then
      the two endpoints' ids and types. */
  function Endpoints(name: Option<string>, from: Document, to: Document): seq<(string, Value)> {
    [("name", NameValue(name)), ("from_id", IdOf(from)), ("from_type", TypeOf(from)),
     ("to_id", IdOf(to)), ("to_type", TypeOf(to))]
  }

  /** One link document of `addLinks`, of class `s`: a new document named
      `name` whose endpoints are copied from the two documents. */
  function LinkDocumentIn(s: Schema, name: Option<string>, from: Document, to: Document, freshId: string): Result<Document> {
    var l :- NewDocument(s, freshId);
    AssignAll(l, Endpoints(name, from, to))
  }

  /** Whether the endpoint values can be stored in a link document. */
  predicate Linkable(from: Document, to: Document) {
    StringLike(IdOf(from)) && StringLike(TypeOf(from)) && StringLike(IdOf(to)) && StringLike(TypeOf(to))
  }

  /** A link document is built exactly when the endpoints' ids and types
      are strings (or falsy). */
  lemma LinkDocumentInFields(s: Schema, name: Option<string>, from: Document, to: Document, freshId: string)
    requires LinkClass(s)
    ensures LinkDocumentIn(s, name, from, to, freshId).Ok? <==> Linkable(from, to)
  {
    NewLinkDocument(s, freshId);
    var l0 := NewDocument(s, freshId).value;
    var xs := Endpoints(name, from, to);
    EndpointNames(name, from, to);
    EndpointValues(name, from, to);
    assert forall i :: 0 <= i < |xs| ==> Declared(s, xs[i].0);
    AssignAllFields(l0, xs);
  }

  /** A new document of a link class: it can always be built, and has the
      fresh id, type `_link` and no revision. */
  lemma NewLinkDocument(s: Schema, freshId: string)
    requires LinkClass(s)
    ensures NewDocument(s, freshId).Ok?
    ensures var l := NewDocument(s, freshId).value;
            ValueOf(s, l.inst, "_id") == Str(freshId) && ValueOf(s, l.inst, "type_") == Str("_link") &&
            ValueOf(s, l.inst, "_rev") == Null
  {
    LinkClassStandard(s);
    NewDocumentFields(s, freshId);
  }

  /** What a link document built on class `s` holds: the name, both
      endpoints, the fresh id and type `_link`; it has not been added. */
  lemma LinkDocumentInValues(s: Schema, name: Option<string>, from: Document, to: Document, freshId: string)
    requires LinkClass(s) && LinkDocumentIn(s, name, from, to, freshId).Ok?
    ensures var l := LinkDocumentIn(s, name, from, to, freshId).value;
            l.schema == s && !l.marked && !HasBeenAdded(l) &&
            IdOf(l) == Str(freshId) && TypeOf(l) == Str("_link") &&
            ValueOf(s, l.inst, "name") == NameValue(name) &&
            ValueOf(s, l.inst, "from_id") == IdOf(from) && ValueOf(s, l.inst, "from_type") == TypeOf(from) &&
            ValueOf(s, l.inst, "to_id") == IdOf(to) && ValueOf(s, l.inst, "to_type") == TypeOf(to)
  {
    LinkDocumentInBookkeeping(s, name, from, to, freshId);
    LinkDocumentInEndpoints(s, name, from, to, freshId);
  }

  /** A built link document stores each endpoint value under its name and
      keeps everything else from the new document. */
  lemma LinkDocumentInAssigned(s: Schema, name: Option<string>, from: Document, to: Document, freshId: string)
    requires LinkClass(s) && LinkDocumentIn(s, name, from, to, freshId).Ok?
    ensures NewDocument(s, freshId).Ok?
    ensures var l := LinkDocumentIn(s, name, from, to, freshId).value;
            var xs := Endpoints(name, from, to);
            l.schema == s && !l.marked &&
            (forall i :: 0 <= i < |xs| ==> Current(l.inst, xs[i].0) == Some(Scalar(xs[i].1))) &&
            forall k :: k !in AssignedNames(xs) ==> Current(l.inst, k) == Current(NewDocument(s, freshId).value.inst, k)
  {
    NewLinkDocument(s, freshId);
    NewDocumentFields(s, freshId);
    var l0 := NewDocument(s, freshId).value;
    var xs := Endpoints(name, from, to);
    EndpointNames(name, from, to);
    assert forall i :: 0 <= i < |xs| ==> Declared(s, xs[i].0);
    AssignAllFields(l0, xs);
  }

  /** Names holding scalars read as those scalars. */
  lemma StoredValues(s: Schema, inst: Instance, xs: seq<(string, Value)>)
    requires LinkClass(s)
    requires forall i :: 0 <= i < |xs| ==> xs[i].0 in {"name", "from_id", "from_type", "to_id", "to_type"}
    requires forall i :: 0 <= i < |xs| ==> Current(inst, xs[i].0) == Some(Scalar(xs[i].1))
    ensures forall i :: 0 <= i < |xs| ==> ValueOf(s, inst, xs[i].0) == xs[i].1
  {
    forall i | 0 <= i < |xs| ensures ValueOf(s, inst, xs[i].0) == xs[i].1 {
      LinkValue(s, inst, xs[i].0);
    }
  }

  lemma LinkDocumentInBookkeeping(s: Schema, name: Option<string>, from: Document, to: Document, freshId: string)
    requires LinkClass(s) && LinkDocumentIn(s, name, from, to, freshId).Ok?
    ensures var l := LinkDocumentIn(s, name, from, to, freshId).value;
            l.schema == s && !l.marked && !HasBeenAdded(l) && IdOf(l) == Str(freshId) && TypeOf(l) == Str("_link")
  {
    LinkDocumentInAssigned(s, name, from, to, freshId);
    NewLinkDocument(s, freshId);
    EndpointsSpareBookkeeping(name, from, to);
    var l0 := NewDocument(s, freshId).value;
    var l := LinkDocumentIn(s, name, from, to, freshId).value;
    LinkValue(s, l.inst, "_id");
    LinkValue(s, l0.inst, "_id");
    LinkValue(s, l.inst, "_rev");
    LinkValue(s, l0.inst, "_rev");
    LinkValue(s, l.inst, "type_");
    LinkValue(s, l0.inst, "type_");
  }

  lemma LinkDocumentInEndpoints(s: Schema, name: Option<string>, from: Document, to: Document, freshId: string)
    requires LinkClass(s) && LinkDocumentIn(s, name, from, to, freshId).Ok?
    ensures var l := LinkDocumentIn(s, name, from, to, freshId).value;
            ValueOf(s, l.inst, "name") == NameValue(name) &&
            ValueOf(s, l.inst, "from_id") == IdOf(from) && ValueOf(s, l.inst, "from_type") == TypeOf(from) &&
            ValueOf(s, l.inst, "to_id") == IdOf(to) && ValueOf(s, l.inst, "to_type") == TypeOf(to)
  {
    LinkDocumentInAssigned(s, name, from, to, freshId);
    var l := LinkDocumentIn(s, name, from, to, freshId).value;
    var xs := Endpoints(name, from, to);
    EndpointNames(name, from, to);
    StoredValues(s, l.inst, xs);
    assert xs[0] == ("name", NameValue(name)) && xs[1] == ("from_id", IdOf(from)) && xs[2] == ("from_type", TypeOf(from));
    assert xs[3] == ("to_id", IdOf(to)) && xs[4] == ("to_type", TypeOf(to));
  }

  /** The five endpoint names are distinct and all declared by every link
      class. */
  lemma EndpointNames(name: Option<string>, from: Document, to: Document)
    ensures var xs := Endpoints(name, from, to);
            (forall i, j :: 0 <= i < j < |xs| ==> xs[i].0 != xs[j].0) &&
            (forall i :: 0 <= i < |xs| ==> xs[i].0 in {"name", "from_id", "from_type", "to_id", "to_type"})
  {
  }

  /** The endpoint values can all be stored exactly when the endpoints are
      linkable. */
  lemma EndpointValues(name: Option<string>, from: Document, to: Document)
    ensures var xs := Endpoints(name, from, to);
            (forall i :: 0 <= i < |xs| ==> StringLike(xs[i].1)) <==> Linkable(from, to)
  {
    var xs := Endpoints(name, from, to);
    assert StringLike(xs[0].1);
    assert xs[1].1 == IdOf(from) && xs[2].1 == TypeOf(from) && xs[3].1 == IdOf(to) && xs[4].1 == TypeOf(to);
  }

  /** The endpoints leave the bookkeeping names alone. */
  lemma EndpointsSpareBookkeeping(name: Option<string>, from: Document, to: Document)
    ensures var xs := Endpoints(name, from, to);
            "_id" !in AssignedNames(xs) && "_rev" !in AssignedNames(xs) && "type_" !in AssignedNames(xs)
  {
  }

  // ---------------------------------------------------------------------
  // addLinks

  /** The two link documents `addLinks` creates for one target: the forward
      one named after the property, from `from` to `to`, and the reverse one
      named after the property's reverse name, from `to` back to `from`. */
  function LinkPair(linkClass: Schema, from: Document, to: Document, name: Option<string>, reverse: Option<string>, ids: (string, string)): Result<(Document, Document)> {
    var forward :- LinkDocumentIn(linkClass, name, from, to, ids.0);
    var backward :- LinkDocumentIn(linkClass, reverse, to, from, ids.1);
    Ok((forward, backward))
  }

  /** A target's pair of link documents is built exactly when the
      endpoints' ids and types are string-like; the forward document runs
      from `from` to `to` under the property's name, the backward one runs
      the other way under the reverse name, and neither has been added. */
  lemma LinkPairEnds(linkClass: Schema, from: Document, to: Document, name: Option<string>, reverse: Option<string>, ids: (string, string))
    requires LinkClass(linkClass)
    ensures LinkPair(linkClass, from, to, name, reverse, ids).Ok? <==> Linkable(from, to)
    ensures LinkPair(linkClass, from, to, name, reverse, ids).Ok? ==>
              var (f, b) := LinkPair(linkClass, from, to, name, reverse, ids).value;
              !HasBeenAdded(f) && !HasBeenAdded(b) && IdOf(f) == Str(ids.0) && IdOf(b) == Str(ids.1) &&
              ValueOf(linkClass, f.inst, "name") == NameValue(name) &&
              ValueOf(linkClass, f.inst, "from_id") == IdOf(from) && ValueOf(linkClass, f.inst, "to_id") == IdOf(to) &&
              ValueOf(linkClass, b.inst, "name") == NameValue(reverse) &&
              ValueOf(linkClass, b.inst, "from_id") == IdOf(to) && ValueOf(linkClass, b.inst, "to_id") == IdOf(from)
    ensures LinkPair(linkClass, from, to, name, reverse, ids).Ok? ==>
              var (f, b) := LinkPair(linkClass, from, to, name, reverse, ids).value;
              ValueOf(linkClass, f.inst, "from_type") == TypeOf(from) && ValueOf(linkClass, f.inst, "to_type") == TypeOf(to) &&
              ValueOf(linkClass, b.inst, "from_type") == TypeOf(to) && ValueOf(linkClass, b.inst, "to_type") == TypeOf(from)
  {
    LinkDocumentInFields(linkClass, name, from, to, ids.0);
    LinkDocumentInFields(linkClass, reverse, to, from, ids.1);
    if LinkPair(linkClass, from, to, name, reverse, ids).Ok? {
      LinkDocumentInValues(linkClass, name, from, to, ids.0);
      LinkDocumentInValues(linkClass, reverse, to, from, ids.1);
    }
  }

  /** The pairs for all targets, in order; the first failure aborts. */
  function Pairs(linkClass: Schema, from: Document, tos: seq<Document>, name: Option<string>, reverse: Option<string>, ids: seq<(string, string)>): (r: Result<seq<(Document, Document)>>)
    requires |ids| == |tos|
    ensures r.Ok? <==> forall i :: 0 <= i < |tos| ==> LinkPair(linkClass, from, tos[i], name, reverse, ids[i]).Ok?
    ensures r.Ok? ==> |r.value| == |tos|
    ensures r.Ok? ==> forall i :: 0 <= i < |tos| ==> r.value[i] == LinkPair(linkClass, from, tos[i], name, reverse, ids[i]).value
    ensures r.Err? ==>
              exists i :: 0 <= i < |tos| && LinkPair(linkClass, from, tos[i], name, reverse, ids[i]).Err? &&
                r.error == LinkPair(linkClass, from, tos[i], name, reverse, ids[i]).error &&
                forall j :: 0 <= j < i ==> LinkPair(linkClass, from, tos[j], name, reverse, ids[j]).Ok?
  {
    AllOk(PairResults(linkClass, from, tos, name, reverse, ids))
  }

  /** Each target's pair, built independently. */
  function PairResults(linkClass: Schema, from: Document, tos: seq<Document>, name: Option<string>, reverse: Option<string>, ids: seq<(string, string)>): (rs: seq<Result<(Document, Document)>>)
    requires |ids| == |tos|
    ensures |rs| == |tos|
    ensures forall i :: 0 <= i < |tos| ==> rs[i] == LinkPair(linkClass, from, tos[i], name, reverse, ids[i])
  {
    seq(|tos|, i requires 0 <= i < |tos| => LinkPair(linkClass, from, tos[i], name, reverse, ids[i]))
  }

  lemma PairResultsPrefix(linkClass: Schema, from: Document, tos: seq<Document>, name: Option<string>, reverse: Option<string>, ids: seq<(string, string)>, n: nat)
    requires |ids| == |tos| && n <= |tos|
    ensures PairResults(linkClass, from, tos[..n], name, reverse, ids[..n]) == PairResults(linkClass, from, tos, name, reverse, ids)[..n]
  {
    var a := PairResults(linkClass, from, tos[..n], name, reverse, ids[..n]);
    var b := PairResults(linkClass, from, tos, name, reverse, ids)[..n];
    forall j | 0 <= j < n ensures a[j] == b[j] {
      assert tos[..n][j] == tos[j] && ids[..n][j] == ids[j];
    }
  }

  /** The document has no revision yet. */
  predicate Unadded(d: Document) {
    !HasBeenAdded(d)
  }

  /** `[d]` when `d` has not been added, else nothing. */
  function IfUnadded(d: Document): seq<Document> {
    if HasBeenAdded(d) then [] else [d]
  }

  /** `documents_to_add`: the from-document if it is new, then per target
      the target if it is new followed by its two link documents. */
  function Queued(from: Document, tos: seq<Document>, pairs: seq<(Document, Document)>): seq<Document>
    requires |pairs| == |tos|
    decreases |tos|
  {
    if |tos| == 0 then IfUnadded(from)
    else
      var n := |tos| - 1;
      Queued(from, tos[..n], pairs[..n]) + IfUnadded(tos[n]) + [pairs[n].0, pairs[n].1]
  }

  /** `Database.addLinks` up to the bulk submission (which is
      `Bulk.Partition` of the returned documents). `linkClass` is the class
      of the link documents, `LinkDocumentClass` in the program (see
      `LinkDocumentClassShape`); `ids` are the fresh ids of each target's
      two link documents. */
  method AddLinks(linkClass: Schema, from: Document, name: Option<string>, reverse: Option<string>, tos: seq<Document>, ids: seq<(string, string)>)
    returns (r: Result<seq<Document>>)
    requires |ids| == |tos|
    ensures r.Ok? <==> Pairs(linkClass, from, tos, name, reverse, ids).Ok?
    ensures r.Ok? ==> r.value == Queued(from, tos, Pairs(linkClass, from, tos, name, reverse, ids).value)
    ensures r.Err? ==> r.error == Pairs(linkClass, from, tos, name, reverse, ids).error
  {
    var queue := IfUnadded(from);
    var pairs: seq<(Document, Document)> := [];
    var i := 0;
    while i < |tos|
      invariant 0 <= i <= |tos| && |pairs| == i
      invariant Pairs(linkClass, from, tos[..i], name, reverse, ids[..i]) == Ok(pairs)
      invariant queue == Queued(from, tos[..i], pairs)
    {
      var p := LinkPair(linkClass, from, tos[i], name, reverse, ids[i]);
      PairsStep(linkClass, from, tos, name, reverse, ids, pairs);
      if p.Err? {
        return Err(p.error);
      }
      QueuedStep(from, tos, pairs, p.value);
      queue := queue + IfUnadded(tos[i]) + [p.value.0, p.value.1];
      pairs := pairs + [p.value];
      i := i + 1;
    }
    assert tos[..|tos|] == tos && ids[..|ids|] == ids;
    return Ok(queue);
  }

  /** Building the pair of one more target: on success the pairs so far
      grow by it, on failure its error is the first failure of all. */
  lemma PairsStep(linkClass: Schema, from: Document, tos: seq<Document>, name: Option<string>, reverse: Option<string>, ids: seq<(string, string)>, pairs: seq<(Document, Document)>)
    requires |ids| == |tos| && |pairs| < |tos|
    requires Pairs(linkClass, from, tos[..|pairs|], name, reverse, ids[..|pairs|]) == Ok(pairs)
    ensures var p := LinkPair(linkClass, from, tos[|pairs|], name, reverse, ids[|pairs|]);
            p.Ok? ==> Pairs(linkClass, from, tos[..|pairs| + 1], name, reverse, ids[..|pairs| + 1]) == Ok(pairs + [p.value])
    ensures var p := LinkPair(linkClass, from, tos[|pairs|], name, reverse, ids[|pairs|]);
            p.Err? ==> Pairs(linkClass, from, tos, name, reverse, ids) == Err(p.error)
  {
    var n := |pairs|;
    var rs := PairResults(linkClass, from, tos, name, reverse, ids);
    PairResultsPrefix(linkClass, from, tos, name, reverse, ids, n);
    PairResultsPrefix(linkClass, from, tos, name, reverse, ids, n + 1);
    AllOkStep(rs, pairs);
  }

  /** Handling one more target extends the queue at its end. */
  lemma QueuedStep(from: Document, tos: seq<Document>, pairs: seq<(Document, Document)>, pair: (Document, Document))
    requires |pairs| < |tos|
    ensures Queued(from, tos[..|pairs| + 1], pairs + [pair]) ==
              Queued(from, tos[..|pairs|], pairs) + IfUnadded(tos[|pairs|]) + [pair.0, pair.1]
  {
    var i := |pairs|;
    assert tos[..i + 1][..i] == tos[..i];
    assert (pairs + [pair])[..i] == pairs;
  }

  /** `addLinks` queues one document per new endpoint plus two link
      documents per target. */
  lemma {:induction false} QueuedCount(from: Document, tos: seq<Document>, pairs: seq<(Document, Document)>)
    requires |pairs| == |tos|
    ensures |Queued(from, tos, pairs)| == |IfUnadded(from)| + |Select(tos, Unadded)| + 2 * |tos|
    decreases |tos|
  {
    if |tos| > 0 {
      var n := |tos| - 1;
      QueuedCount(from, tos[..n], pairs[..n]);
      assert Select(tos, Unadded) == Select(tos[..n], Unadded) + IfUnadded(tos[n]);
    }
  }

  /** The from-document, when new, is queued first. */
  lemma {:induction false} QueuedFirst(from: Document, tos: seq<Document>, pairs: seq<(Document, Document)>)
    requires |pairs| == |tos| && !HasBeenAdded(from)
    ensures |Queued(from, tos, pairs)| > 0 && Queued(from, tos, pairs)[0] == from
    decreases |tos|
  {
    if |tos| > 0 {
      var n := |tos| - 1;
      QueuedFirst(from, tos[..n], pairs[..n]);
    }
  }

  /** Every queued document is the new from-document, a new target, or one
      of the link documents. */
  lemma {:induction false} QueuedMembers(from: Document, tos: seq<Document>, pairs: seq<(Document, Document)>)
    requires |pairs| == |tos|
    ensures forall d :: d in Queued(from, tos, pairs) ==>
              (d == from && !HasBeenAdded(from)) || (d in tos && !HasBeenAdded(d)) ||
              exists i :: 0 <= i < |pairs| && (d == pairs[i].0 || d == pairs[i].1)
    decreases |tos|
  {
    if |tos| > 0 {
      var n := |tos| - 1;
      QueuedMembers(from, tos[..n], pairs[..n]);
      var q0 := Queued(from, tos[..n], pairs[..n]);
      forall d | d in Queued(from, tos, pairs)
        ensures (d == from && !HasBeenAdded(from)) || (d in tos && !HasBeenAdded(d)) ||
                exists i :: 0 <= i < |pairs| && (d == pairs[i].0 || d == pairs[i].1)
      {
        if d in q0 {
          if d in tos[..n] {
            assert d in tos;
          } else if exists i :: 0 <= i < n && (d == pairs[..n][i].0 || d == pairs[..n][i].1) {
            var i :| 0 <= i < n && (d == pairs[..n][i].0 || d == pairs[..n][i].1);
            assert pairs[..n][i] == pairs[i];
          }
        } else if d in IfUnadded(tos[n]) {
          assert d == tos[n];
        } else {
          assert d == pairs[n].0 || d == pairs[n].1;
        }
      }
    }
  }

  /** Each target's two link documents are queued side by side. */
  lemma {:induction false} QueuedPairsAdjacent(from: Document, tos: seq<Document>, pairs: seq<(Document, Document)>)
    requires |pairs| == |tos|
    ensures forall i :: 0 <= i < |pairs| ==> Adjacent(Queued(from, tos, pairs), pairs[i].0, pairs[i].1)
    decreases |tos|
  {
    if |tos| > 0 {
      var n := |tos| - 1;
      var q0 := Queued(from, tos[..n], pairs[..n]);
      var tail := IfUnadded(tos[n]) + [pairs[n].0, pairs[n].1];
      QueuedPairsAdjacent(from, tos[..n], pairs[..n]);
      assert Queued(from, tos, pairs) == q0 + tail;
      forall i | 0 <= i < |pairs| ensures Adjacent(q0 + tail, pairs[i].0, pairs[i].1) {
        if i < n {
          assert pairs[..n][i] == pairs[i];
          AdjacentExtended(q0, tail, pairs[i].0, pairs[i].1);
        } else {
          var j := |q0| + |tail| - 2;
          assert (q0 + tail)[j] == pairs[n].0 && (q0 + tail)[j + 1] == pairs[n].1;
        }
      }
    }
  }

  /** `a` is immediately followed by `b` somewhere in `q`. */
  predicate Adjacent(q: seq<Document>, a: Document, b: Document) {
    exists j :: 0 <= j < |q| - 1 && q[j] == a && q[j + 1] == b
  }

  lemma AdjacentExtended(q: seq<Document>, tail: seq<Document>, a: Document, b: Document)
    requires Adjacent(q, a, b)
    ensures Adjacent(q + tail, a, b)
  {
    var j :| 0 <= j < |q| - 1 && q[j] == a && q[j + 1] == b;
    assert (q + tail)[j] == a && (q + tail)[j + 1] == b;
  }
}

=== FILE: lists.dfy ===
/** `DictPropertyList`, the list a List property stores: every way of adding
    items validates them through the item schema first. A batch (`extend`,
    `+`, `+=`, slice assignment, construction) validates every item before
    the list changes, so a failure leaves the list as it was; `append` and
    `insert` validate their single item. */
module PropertyLists {
  import opened Results
  import opened Values
  import opened Properties
  import opened Instances
  import opened Invariant
  import opened RoundTrip

  /** Batch validation is elementwise: it succeeds exactly when every item
      does, yields each item's own result in order, and otherwise raises
      the error of the first item that fails. */
  lemma {:induction false} ValidateItemsElementwise(item: Schema, es: seq<Value>)
    ensures ValidateItems(item, es).Ok? <==> forall i :: 0 <= i < |es| ==> ValidateItem(item, es[i]).Ok?
    ensures ValidateItems(item, es).Ok? ==>
              |ValidateItems(item, es).value| == |es| &&
              forall i :: 0 <= i < |es| ==> ValidateItems(item, es).value[i] == ValidateItem(item, es[i]).value
    ensures ValidateItems(item, es).Err? ==>
              exists i :: 0 <= i < |es| && ValidateItem(item, es[i]).Err? &&
                ValidateItems(item, es).error == ValidateItem(item, es[i]).error &&
                forall j :: 0 <= j < i ==> ValidateItem(item, es[j]).Ok?
    decreases |es|
  {
    if |es| > 0 {
      ValidateItemsElementwise(item, es[1..]);
      assert forall i :: 1 <= i < |es| ==> es[1..][i - 1] == es[i];
      var r := ValidateItems(item, es);
      if ValidateItem(item, es[0]).Ok? {
        var rest := ValidateItems(item, es[1..]);
        if rest.Ok? {
          forall i | 0 <= i < |es| ensures r.value[i] == ValidateItem(item, es[i]).value {
            if i > 0 { assert r.value[i] == rest.value[i - 1]; }
          }
        } else {
          var i :| 0 <= i < |es[1..]| && ValidateItem(item, es[1..][i]).Err? &&
                   rest.error == ValidateItem(item, es[1..][i]).error &&
                   forall j :: 0 <= j < i ==> ValidateItem(item, es[1..][j]).Ok?;
          assert ValidateItem(item, es[i + 1]).Err?;
          forall j | 0 <= j < i + 1 ensures ValidateItem(item, es[j]).Ok? {
            if j > 0 { assert es[j] == es[1..][j - 1]; }
          }
        }
      } else {
        assert ValidateItem(item, es[0]).Err?;
      }
    }
  }

  /** `list.append` after validating the item. */
  function Append(item: Schema, xs: seq<Instance>, v: Value): (r: Result<seq<Instance>>)
    ensures r.Ok? <==> ValidateItem(item, v).Ok?
    ensures r.Err? ==> r.error == ValidateItem(item, v).error
    ensures r.Ok? ==> |r.value| == |xs| + 1 && r.value[..|xs|] == xs && r.value[|xs|] == ValidateItem(item, v).value
  {
    var x :- ValidateItem(item, v);
    Ok(xs + [x])
  }

  /** Where `list.insert(i, x)` puts the item in a list of length `n`: a
      negative index counts from the end, and the result is clamped to
      `0..n`. */
  function InsertPosition(n: nat, i: int): (r: nat)
    ensures r <= n
    ensures 0 <= i <= n ==> r == i
    ensures i < 0 && 0 <= i + n ==> r == i + n
    ensures i + n < 0 ==> r == 0
    ensures i > n ==> r == n
  {
    if i < 0 then (if i + n < 0 then 0 else i + n)
    else if i > n then n
    else i
  }

  /** `list.insert` after validating the item (argument 1). */
  function Insert(item: Schema, xs: seq<Instance>, i: int, v: Value): (r: Result<seq<Instance>>)
    ensures r.Ok? <==> ValidateItem(item, v).Ok?
    ensures r.Err? ==> r.error == ValidateItem(item, v).error
    ensures r.Ok? ==>
              var at := InsertPosition(|xs|, i);
              |r.value| == |xs| + 1 && r.value[..at] == xs[..at] &&
              r.value[at] == ValidateItem(item, v).value && r.value[at + 1..] == xs[at..]
  {
    var x :- ValidateItem(item, v);
    var at := InsertPosition(|xs|, i);
    assert (xs[..at] + [x] + xs[at..])[at + 1..] == xs[at..];
    Ok(xs[..at] + [x] + xs[at..])
  }

  /** `extend`, `__add__` and `__iadd__`: the argument is iterated and every
      element validated before any is added; the result is the old items
      followed by the validated ones. A value Python cannot iterate raises
      `TypeError`. (`__add__` returns a new plain list and `extend`/`+=`
      update in place; the items are the same.) */
  function AddAll(item: Schema, xs: seq<Instance>, v: Value): (r: Result<seq<Instance>>)
    ensures r.Ok? <==> Elements(v).Ok? && forall i :: 0 <= i < |Elements(v).value| ==> ValidateItem(item, Elements(v).value[i]).Ok?
    ensures Elements(v).Err? ==> r == Err(TypeError)
    ensures r.Ok? ==>
              var es := Elements(v).value;
              |r.value| == |xs| + |es| && r.value[..|xs|] == xs &&
              forall i :: 0 <= i < |es| ==> r.value[|xs| + i] == ValidateItem(item, es[i]).value
    ensures r.Err? && Elements(v).Ok? ==>
              exists i :: 0 <= i < |Elements(v).value| && ValidateItem(item, Elements(v).value[i]).Err? &&
                r.error == ValidateItem(item, Elements(v).value[i]).error &&
                forall j :: 0 <= j < i ==> ValidateItem(item, Elements(v).value[j]).Ok?
  {
    var es :- Elements(v);
    ValidateItemsElementwise(item, es);
    var ys :- ValidateItems(item, es);
    assert (xs + ys)[..|xs|] == xs;
    Ok(xs + ys)
  }

  /** The bounds `list.__setslice__(lo, hi, ...)` works with on a list of
      length `n`: `lo` clamped to `0..n`, then `hi` clamped to `lo..n`. */
  function SliceBounds(n: nat, lo: int, hi: int): (r: (nat, nat))
    ensures r.0 <= r.1 <= n
    ensures 0 <= lo <= hi <= n ==> r == (lo, hi)
    ensures lo < 0 ==> r.0 == 0
    ensures lo > n ==> r.0 == n
    ensures hi < lo ==> r.1 == r.0
  {
    var a := if lo < 0 then 0 else if lo > n then n else lo;
    var b := if hi < a then a else if hi > n then n else hi;
    (a, b)
  }

  /** `DictPropertyList.__setslice__` as written: the wrapper validates
      argument 0 as a list, i.e. it maps `_validate` over the start index,
      an integer, which Python cannot iterate. */
  function SetSliceAsWritten(item: Schema, xs: seq<Instance>, lo: int, hi: int, v: Value): (r: Result<seq<Instance>>)
    ensures r == Err(TypeError)
  {
    // `map(self._validate, lo)` raises before `list.__setslice__` is reached
    var iterated := Elements(Int(lo));
    iterated.PropagateFailure()
  }

  /** `__setslice__` as evidently intended: validate the new items
      (argument 2), then replace the clamped slice with them. */
  function SetSlice(item: Schema, xs: seq<Instance>, lo: int, hi: int, v: Value): (r: Result<seq<Instance>>)
    ensures r.Ok? <==> Elements(v).Ok? && forall i :: 0 <= i < |Elements(v).value| ==> ValidateItem(item, Elements(v).value[i]).Ok?
    ensures r.Ok? ==>
              var es := Elements(v).value;
              var (a, b) := SliceBounds(|xs|, lo, hi);
              |r.value| == |xs| - (b - a) + |es| &&
              r.value[..a] == xs[..a] && r.value[a + |es|..] == xs[b..] &&
              forall i :: 0 <= i < |es| ==> r.value[a + i] == ValidateItem(item, es[i]).value
  {
    var es :- Elements(v);
    ValidateItemsElementwise(item, es);
    var ys :- ValidateItems(item, es);
    var (a, b) := SliceBounds(|xs|, lo, hi);
    var out := xs[..a] + ys + xs[b..];
    assert out[..a] == xs[..a];
    assert out[a + |ys|..] == xs[b..];
    Ok(out)
  }

  /** `DictPropertyList.__setitem__` as written: the wrapper validates
      argument 0, the index. A non-dict index is ignored by the item import,
      so the index becomes a blank item instance and `list.__setitem__`
      refuses it as an index; the call can never store anything. */
  function SetItemAsWritten(item: Schema, xs: seq<Instance>, index: Value, v: Value): (r: Result<seq<Instance>>)
    ensures r.Err?
  {
    var validatedIndex :- ValidateItem(item, index);
    // `list.__setitem__(validatedIndex, v)`: a schema instance is not an index
    Err(TypeError)
  }

  /** With a constructible item schema and an ordinary (non-dict) index the
      as-written `__setitem__` always raises `TypeError`. */
  lemma SetItemAsWrittenRefusesIndex(item: Schema, xs: seq<Instance>, index: Value, v: Value)
    requires Construct(item).Ok? && !index.Dict?
    ensures SetItemAsWritten(item, xs, index, v) == Err(TypeError)
  {
    assert ValidateItem(item, index) == FromDict(item, Construct(item).value, index);
  }

  /** `__setitem__` as evidently intended: validate the value (argument 1),
      then store it at the index, a negative index counting from the end;
      an index outside the list raises `IndexError`. */
  function SetItem(item: Schema, xs: seq<Instance>, i: int, v: Value): (r: Result<seq<Instance>>)
    ensures r.Ok? <==> ValidateItem(item, v).Ok? && -|xs| <= i < |xs|
    ensures r.Err? && ValidateItem(item, v).Ok? ==> r.error == IndexError
    ensures r.Ok? ==>
              var at := if i < 0 then i + |xs| else i;
              |r.value| == |xs| && r.value[at] == ValidateItem(item, v).value &&
              forall j :: 0 <= j < |xs| && j != at ==> r.value[j] == xs[j]
  {
    var x :- ValidateItem(item, v);
    var at := if i < 0 then i + |xs| else i;
    if 0 <= at < |xs| then Ok(xs[at := x]) else Err(IndexError)
  }

  /** The smallest list item schema: no properties. */
  const EmptyItem := Schema("SchemaSubClass", false, [])

  /** `lst[0] = {}` on a one-item list: refused as written, accepted once
      the value rather than the index is validated. */
  lemma SetItemCounterexample()
    ensures SetItemAsWritten(EmptyItem, [Fresh], Int(0), Dict(map[])) == Err(TypeError)
    ensures SetItem(EmptyItem, [Fresh], 0, Dict(map[])) == Ok([Fresh])
  {
    assert ConstructFrom(EmptyItem, 0, Fresh) == Ok(Fresh);
    assert Construct(EmptyItem) == Ok(Fresh);
    assert AssignFrom(EmptyItem, Fresh, map[], 0, Fresh) == Ok(Fresh);
    assert FromDict(EmptyItem, Fresh, Dict(map[])) == Ok(Fresh);
    assert ValidateItem(EmptyItem, Dict(map[])) == Ok(Fresh);
    assert [Fresh][0 := Fresh] == [Fresh];
  }

  /** `lst[0:0] = []` on an empty list: refused as written, a no-op once the
      new items rather than the start index are validated. */
  lemma SetSliceCounterexample()
    ensures SetSliceAsWritten(EmptyItem, [], 0, 0, List([])) == Err(TypeError)
    ensures SetSlice(EmptyItem, [], 0, 0, List([])) == Ok([])
  {
  }

  /** Every item of `xs` is a well-formed instance of `item`. */
  ghost predicate AllValid(item: Schema, xs: seq<Instance>) {
    forall j :: 0 <= j < |xs| ==> Valid(item, xs[j])
  }

  /** Every list operation keeps all items well formed. */
  lemma ListOpsKeepValid(item: Schema, xs: seq<Instance>, i: int, lo: int, hi: int, v: Value)
    requires AllValid(item, xs)
    ensures Append(item, xs, v).Ok? ==> AllValid(item, Append(item, xs, v).value)
    ensures Insert(item, xs, i, v).Ok? ==> AllValid(item, Insert(item, xs, i, v).value)
    ensures AddAll(item, xs, v).Ok? ==> AllValid(item, AddAll(item, xs, v).value)
    ensures SetSlice(item, xs, lo, hi, v).Ok? ==> AllValid(item, SetSlice(item, xs, lo, hi, v).value)
    ensures SetItem(item, xs, i, v).Ok? ==> AllValid(item, SetItem(item, xs, i, v).value)
  {
    SingleOpsKeepValid(item, xs, i, v);
    InsertKeepsValid(item, xs, i, v);
    BatchOpsKeepValid(item, xs, lo, hi, v);
  }

  lemma SingleOpsKeepValid(item: Schema, xs: seq<Instance>, i: int, v: Value)
    requires AllValid(item, xs)
    ensures Append(item, xs, v).Ok? ==> AllValid(item, Append(item, xs, v).value)
    ensures SetItem(item, xs, i, v).Ok? ==> AllValid(item, SetItem(item, xs, i, v).value)
  {
    ValidateItemValid(item, v);
  }

  lemma InsertKeepsValid(item: Schema, xs: seq<Instance>, i: int, v: Value)
    requires AllValid(item, xs)
    ensures Insert(item, xs, i, v).Ok? ==> AllValid(item, Insert(item, xs, i, v).value)
  {
    ValidateItemValid(item, v);
    if Insert(item, xs, i, v).Ok? {
      var r := Insert(item, xs, i, v).value;
      var at := InsertPosition(|xs|, i);
      forall j | 0 <= j < |r| ensures Valid(item, r[j]) {
        if j < at { assert r[j] == r[..at][j] == xs[j]; }
        else if j > at { assert r[j] == r[at + 1..][j - at - 1] == xs[at..][j - at - 1]; }
      }
    }
  }

  lemma BatchOpsKeepValid(item: Schema, xs: seq<Instance>, lo: int, hi: int, v: Value)
    requires AllValid(item, xs)
    ensures AddAll(item, xs, v).Ok? ==> AllValid(item, AddAll(item, xs, v).value)
    ensures SetSlice(item, xs, lo, hi, v).Ok? ==> AllValid(item, SetSlice(item, xs, lo, hi, v).value)
  {
    if Elements(v).Ok? {
      ValidateItemsValid(item, Elements(v).value);
    }
    if SetSlice(item, xs, lo, hi, v).Ok? {
      var r := SetSlice(item, xs, lo, hi, v).value;
      var ys := ValidateItems(item, Elements(v).value).value;
      var (a, b) := SliceBounds(|xs|, lo, hi);
      assert r == xs[..a] + ys + xs[b..];
    }
  }

  /** An exported item appended back reads out as the same dict. */
  lemma AppendRoundTrip(item: Schema, xs: seq<Instance>, x: Instance)
    requires Valid(item, x) && NoEmbedded(item) && Construct(item).Ok?
    ensures Append(item, xs, ToDict(item, x)).Ok?
    ensures ToDict(item, Append(item, xs, ToDict(item, x)).value[|xs|]) == ToDict(item, x)
  {
    ConstructValid(item);
    DictRoundTrip(item, x, Construct(item).value);
  }

  /** `ListProperty.__set__`: `None` stores an empty list; anything else is
      iterated and the list is stored only if every element validates, in
      which case reading the property yields one item per element. */
  lemma ListAssign(s: Schema, inst: Instance, name: string, v: Value)
    requires Declared(s, name) && Lookup(s, name).kind.ListKind?
    ensures v.Null? ==> SetAttr(s, inst, name, v).Ok? && Read(s, SetAttr(s, inst, name, v).value, name) == Ok(ItemList([]))
    ensures !v.Null? ==>
              (SetAttr(s, inst, name, v).Ok? <==>
                 Elements(v).Ok? &&
                 forall i :: 0 <= i < |Elements(v).value| ==> ValidateItem(Lookup(s, name).kind.item, Elements(v).value[i]).Ok?)
    ensures !v.Null? && SetAttr(s, inst, name, v).Ok? ==>
              var es := Elements(v).value;
              var item := Lookup(s, name).kind.item;
              exists ys: seq<Instance> ::
                Read(s, SetAttr(s, inst, name, v).value, name) == Ok(ItemList(ys)) &&
                |ys| == |es| && forall i :: 0 <= i < |es| ==> ys[i] == ValidateItem(item, es[i]).value
    ensures forall k :: k != name && SetAttr(s, inst, name, v).Ok? ==> Current(SetAttr(s, inst, name, v).value, k) == Current(inst, k)
  {
    var p := Lookup(s, name);
    var item := p.kind.item;
    var sp := SetProp(p, Current(inst, name), v);
    var ml := MakeList(item, v);
    assert sp.Ok? <==> ml.Ok?;
    assert sp.Ok? ==> sp.value == Some(Items(ml.value));
    assert SetAttr(s, inst, name, v).Ok? <==> sp.Ok?;
    assert sp.Ok? ==> SetAttr(s, inst, name, v).value == Store(inst, name, sp.value);
    if !v.Null? && Elements(v).Ok? {
      assert ml == ValidateItems(item, Elements(v).value);
      ValidateItemsElementwise(item, Elements(v).value);
    }
  }
}

=== FILE: properties.dfy ===
/** Property descriptors and the per-class descriptor table.

    A Python schema class carries `_properties`, the list of its property
    names (base classes' names first, then its own), and resolves each name to
    a descriptor through ordinary attribute lookup, so a name a subclass
    redeclares appears twice in the list but resolves to the subclass's
    descriptor. `Schema.fields` is that list with the descriptor each entry was
    declared with; `Lookup` resolves a name to its LAST declaration.
 */
module Properties {
  import opened Results
  import opened Values

  /** The closed family of descriptor classes. A bound of 0 stands for "not
      given": the source only ever tests a bound for truthiness, and `None`
      and `0` are both false. */
  datatype Kind =
    | StringKind(minLength: int, maxLength: int)
    | NumberKind(minimum: real, maximum: real)
    | IntegerKind(minimum: real, maximum: real)   // bounds accepted but never checked
    | BooleanKind
    | DictKind(nested: Schema)                    // the generated nested schema class
    | ListKind(item: Schema)                      // the generated item schema class
    | LinkKind(linkedClass: string, linkType: string, reverse: Option<string>)
    | EmbeddedLinkKind(linkedClass: string)

  /** A descriptor: the `required` flag (as its truthiness), the default value
      assigned at construction, and the kind-specific part. */
  datatype Property = Property(required: bool, default: Value, kind: Kind)

  datatype Field = Field(name: string, prop: Property)

  /** A schema class: its name, whether it is a root schema (`_is_root`) and
      its `_properties` list together with the declaring descriptors. */
  datatype Schema = Schema(className: string, isRoot: bool, fields: seq<Field>)

  predicate IsScalarKind(k: Kind) {
    k.StringKind? || k.NumberKind? || k.IntegerKind? || k.BooleanKind?
  }

  /** Structural size, the termination measure of everything that recurses
      into nested and item schemas. */
  function SchemaSize(s: Schema): nat
    decreases s, 1
  {
    1 + PrefixSize(s, |s.fields|)
  }

  function PrefixSize(s: Schema, n: nat): nat
    requires n <= |s.fields|
    decreases s, 0, n
  {
    if n == 0 then 0 else PrefixSize(s, n - 1) + PropSize(s.fields[n - 1].prop)
  }

  function PropSize(p: Property): nat
    decreases p
  {
    match p.kind
    case DictKind(n) => 1 + SchemaSize(n)
    case ListKind(n) => 1 + SchemaSize(n)
    case _ => 1
  }

  lemma {:induction false} PrefixSizeGrows(s: Schema, i: nat, n: nat)
    requires i < n <= |s.fields|
    ensures PropSize(s.fields[i].prop) <= PrefixSize(s, n)
    decreases n
  {
    if i < n - 1 {
      PrefixSizeGrows(s, i, n - 1);
    }
  }

  /** The names in `_properties`. */
  function Names(s: Schema): set<string> {
    set i | 0 <= i < |s.fields| :: s.fields[i].name
  }

  predicate Declared(s: Schema, name: string) {
    name in Names(s)
  }

  /** Position of the last declaration of `name` in `_properties`. */
  function LastIndex(s: Schema, name: string): (k: nat)
    requires Declared(s, name)
    ensures k < |s.fields| && s.fields[k].name == name
    ensures forall j :: k < j < |s.fields| ==> s.fields[j].name != name
  {
    LastIndexBefore(s, name, |s.fields|)
  }

  function LastIndexBefore(s: Schema, name: string, n: nat): (k: nat)
    requires n <= |s.fields|
    requires exists i :: 0 <= i < n && s.fields[i].name == name
    ensures k < n && s.fields[k].name == name
    ensures forall j :: k < j < n ==> s.fields[j].name != name
    decreases n
  {
    if s.fields[n - 1].name == name then n - 1 else LastIndexBefore(s, name, n - 1)
  }

  /** `getattr(cls, name)` for a property name: the descriptor of the last
      declaration of `name`, i.e. the most derived one. */
  function Lookup(s: Schema, name: string): (p: Property)
    requires Declared(s, name)
    ensures PropSize(p) < SchemaSize(s)
  {
    var k := LastIndex(s, name);
    PrefixSizeGrows(s, k, |s.fields|);
    s.fields[k].prop
  }

  lemma FieldDeclared(s: Schema, i: nat)
    requires i < |s.fields|
    ensures Declared(s, s.fields[i].name)
  {
  }

  /** The names declared at positions `i` and after. */
  function NamesFrom(s: Schema, i: nat): set<string> {
    set j | i <= j < |s.fields| :: s.fields[j].name
  }

  lemma NamesFromZero(s: Schema)
    ensures NamesFrom(s, 0) == Names(s)
  {
  }

  lemma NamesFromStep(s: Schema, i: nat)
    requires i < |s.fields|
    ensures NamesFrom(s, i) == {s.fields[i].name} + NamesFrom(s, i + 1)
  {
    forall k | k in NamesFrom(s, i) ensures k in {s.fields[i].name} + NamesFrom(s, i + 1) {
      var j :| i <= j < |s.fields| && s.fields[j].name == k;
      if j > i { assert k in NamesFrom(s, i + 1); }
    }
  }

  function FieldNames(fs: seq<Field>): set<string> {
    set i | 0 <= i < |fs| :: fs[i].name
  }

  /** The class statement `class C(base): <own properties>`: the new
      `_properties` is the base's list followed by the class's own names. */
  function Derive(base: Schema, className: string, own: seq<Field>): (s: Schema)
    ensures s.className == className && s.isRoot == base.isRoot
    ensures Names(s) == Names(base) + FieldNames(own)
    ensures |s.fields| == |base.fields| + |own|
    ensures forall i :: 0 <= i < |base.fields| ==> s.fields[i] == base.fields[i]
    ensures forall i :: 0 <= i < |own| ==> s.fields[|base.fields| + i] == own[i]
  {
    var s := Schema(className, base.isRoot, base.fields + own);
    assert forall i :: 0 <= i < |own| ==> s.fields[|base.fields| + i] == own[i];
    assert Names(s) == Names(base) + FieldNames(own) by {
      forall x | x in Names(s) ensures x in Names(base) + FieldNames(own) {
        var i :| 0 <= i < |s.fields| && s.fields[i].name == x;
        if i >= |base.fields| {
          assert own[i - |base.fields|].name == x;
        }
      }
      forall x | x in Names(base) ensures x in Names(s) {
        var i :| 0 <= i < |base.fields| && base.fields[i].name == x;
        assert s.fields[i].name == x;
      }
      forall x | x in FieldNames(own) ensures x in Names(s) {
        var i :| 0 <= i < |own| && own[i].name == x;
        assert s.fields[|base.fields| + i].name == x;
      }
    }
    s
  }

  /** A name the subclass declares resolves to the subclass's declaration. */
  lemma {:induction false} DeriveLookupOwn(base: Schema, className: string, own: seq<Field>, i: nat)
    requires i < |own|
    requires forall j :: i < j < |own| ==> own[j].name != own[i].name
    ensures Declared(Derive(base, className, own), own[i].name)
    ensures Lookup(Derive(base, className, own), own[i].name) == own[i].prop
  {
    var s := Derive(base, className, own);
    var name := own[i].name;
    var at := |base.fields| + i;
    assert s.fields[at] == own[i];
    forall j | at < j < |s.fields| ensures s.fields[j].name != name {
      assert s.fields[j] == own[j - |base.fields|];
    }
    var k := LastIndex(s, name);
    assert k == at;
  }

  /** A name the subclass does not redeclare keeps the base's meaning. */
  lemma {:induction false} DeriveLookupInherited(base: Schema, className: string, own: seq<Field>, name: string)
    requires Declared(base, name)
    requires name !in FieldNames(own)
    ensures Declared(Derive(base, className, own), name)
    ensures Lookup(Derive(base, className, own), name) == Lookup(base, name)
  {
    var s := Derive(base, className, own);
    forall j | |base.fields| <= j < |s.fields| ensures s.fields[j].name != name {
      assert s.fields[j] == own[j - |base.fields|];
      assert own[j - |base.fields|].name in FieldNames(own);
    }
    var k := LastIndex(s, name);
    var m := LastIndex(base, name);
    assert s.fields[m] == base.fields[m];
    assert s.fields[k] == base.fields[k];
    assert k == m;
  }
}

=== FILE: results.dfy ===
/** Failure-compatible wrappers and the exceptions the mapping layer can raise.

    Python signals failure by raising; here every operation that can raise
    returns a `Result`, and an `Err` carries the exception class that the
    source would have raised.
 */
module Results {

  datatype Option<+T> = None | Some(value: T)

  /** Why a `ValidationError` was raised; one constructor per distinct message. */
  datatype Reason =
    | NotAString          // "Not a string"
    | StringTooShort      // "String is less than minimum length"
    | StringTooLong       // "String is greater than maximum length"
    | NotANumber          // "Not a number" (raised by both Number and Integer)
    | BelowMinimum        // "Number is less than minimum"
    | AboveMaximum        // "Number is greater than maximum"
    | NotABoolean         // "Not a boolean"
    | NoSuchProperty      // "No property %s exists"

  datatype Error =
    | ValidationError(reason: Reason)
    | TypeError           // Python built-ins refusing an argument (map over a non-iterable, ...)
    | NameError           // a reference to a local that was never bound
    | AttributeError      // attribute lookup of a name the class does not have
    | IndexError          // list index out of range

  /** Either the new value/state, or the exception that aborted the operation.
      An `Err` never carries a state: the caller keeps what it had. */
  datatype Result<+T> = Ok(value: T) | Err(error: Error) {

    predicate IsFailure() {
      Err?
    }

    function PropagateFailure<U>(): Result<U>
      requires Err?
    {
      Err(error)
    }

    function Extract(): T
      requires Ok?
    {
      value
    }
  }

  /** The result of a check that produces no value. */
  datatype Outcome = Pass | Fail(error: Error) {

    predicate IsFailure() {
      Fail?
    }

    function PropagateFailure<U>(): Result<U>
      requires Fail?
    {
      Err(error)
    }
  }
}

=== FILE: roundtrip.dfy ===
/** `instanceFromDict` against a closed-form reference, and the dict round
    trip `instanceToDict(instanceFromDict(instanceToDict(x))) == instanceToDict(x)`
    for schemas built from scalar, Dict, List and Link properties. */
module RoundTrip {
  import opened Results
  import opened Values
  import opened Properties
  import opened Validation
  import opened Instances
  import opened Invariant

  /** What a name holds after an assignment that succeeded: the new stored
      value, or `otherwise` when the descriptor stores nothing (Link). */
  ghost function AfterSet(p: Property, prior: Option<Stored>, v: Value, otherwise: Option<Stored>): Option<Stored>
    requires SetProp(p, prior, v).Ok?
  {
    var o := SetProp(p, prior, v).value;
    if o.Some? then o else otherwise
  }

  /** Every assignment an import would make succeeds. */
  ghost predicate ImportOk(s: Schema, inst: Instance, d: map<string, Value>) {
    forall k :: k in d && Declared(s, k) ==> SetProp(Lookup(s, k), Current(inst, k), d[k]).Ok?
  }

  /** Every assignment of a key among `names` succeeds. */
  ghost predicate SetsOk(s: Schema, inst: Instance, d: map<string, Value>, names: set<string>) {
    forall k :: k in d && k in names && Declared(s, k) ==> SetProp(Lookup(s, k), Current(inst, k), d[k]).Ok?
  }

  /** What `k` holds once the keys among `names` have been assigned on top of `acc`. */
  ghost function Assigned(s: Schema, inst: Instance, d: map<string, Value>, names: set<string>, acc: Instance, k: string): Option<Stored>
    requires SetsOk(s, inst, d, names)
  {
    if k in d && k in names && Declared(s, k) then AfterSet(Lookup(s, k), Current(inst, k), d[k], Current(acc, k))
    else Current(acc, k)
  }

  lemma {:induction false} AssignFromOk(s: Schema, inst: Instance, d: map<string, Value>, i: nat, acc: Instance)
    requires i <= |s.fields|
    ensures AssignFrom(s, inst, d, i, acc).Ok? <==> SetsOk(s, inst, d, NamesFrom(s, i))
    decreases |s.fields| - i
  {
    if i < |s.fields| {
      var name := s.fields[i].name;
      FieldDeclared(s, i);
      NamesFromStep(s, i);
      if name in d {
        var r := SetProp(Lookup(s, name), Current(inst, name), d[name]);
        if r.Ok? {
          AssignFromOk(s, inst, d, i + 1, Store(acc, name, r.value));
        }
      } else {
        AssignFromOk(s, inst, d, i + 1, acc);
      }
    }
  }

  lemma {:induction false} AssignFromValues(s: Schema, inst: Instance, d: map<string, Value>, i: nat, acc: Instance)
    requires i <= |s.fields|
    requires AssignFrom(s, inst, d, i, acc).Ok?
    ensures SetsOk(s, inst, d, NamesFrom(s, i))
    ensures forall k :: Current(AssignFrom(s, inst, d, i, acc).value, k) == Assigned(s, inst, d, NamesFrom(s, i), acc, k)
    decreases |s.fields| - i
  {
    AssignFromOk(s, inst, d, i, acc);
    if i < |s.fields| {
      var name := s.fields[i].name;
      FieldDeclared(s, i);
      NamesFromStep(s, i);
      var later := NamesFrom(s, i + 1);
      var res := AssignFrom(s, inst, d, i, acc).value;
      if name in d {
        var o := SetProp(Lookup(s, name), Current(inst, name), d[name]).value;
        var next := Store(acc, name, o);
        AssignFromValues(s, inst, d, i + 1, next);
        forall k ensures Current(res, k) == Assigned(s, inst, d, NamesFrom(s, i), acc, k) {
          assert Current(res, k) == Assigned(s, inst, d, later, next, k);
          if k == name {
            assert Current(next, k) == AfterSet(Lookup(s, k), Current(inst, k), d[k], Current(acc, k));
          } else {
            assert Current(next, k) == Current(acc, k);
          }
        }
      } else {
        AssignFromValues(s, inst, d, i + 1, acc);
        forall k ensures Current(res, k) == Assigned(s, inst, d, NamesFrom(s, i), acc, k) {
          assert Current(res, k) == Assigned(s, inst, d, later, acc, k);
        }
      }
    }
  }

  /** `instanceFromDict` on a dict: an undeclared key raises
      `ValidationError`; otherwise the import succeeds exactly when every
      assignment does, and then each name in the dict holds what assigning
      its value produces while every other name keeps its value. */
  lemma FromDictImports(s: Schema, inst: Instance, v: Value)
    requires v.Dict?
    ensures (exists k :: k in v.entries && !Declared(s, k)) ==>
              FromDict(s, inst, v) == Err(ValidationError(NoSuchProperty))
    ensures (forall k :: k in v.entries ==> Declared(s, k)) ==>
              (FromDict(s, inst, v).Ok? <==> ImportOk(s, inst, v.entries))
    ensures FromDict(s, inst, v).Ok? ==>
              forall k :: Current(FromDict(s, inst, v).value, k) ==
                (if k in v.entries && Declared(s, k)
                 then AfterSet(Lookup(s, k), Current(inst, k), v.entries[k], Current(inst, k))
                 else Current(inst, k))
  {
    if forall k :: k in v.entries ==> Declared(s, k) {
      assert NamesFrom(s, 0) == Names(s) by {
        forall k | k in Names(s) ensures k in NamesFrom(s, 0) {
          var j := LastIndex(s, k);
        }
      }
      AssignFromOk(s, inst, v.entries, 0, inst);
      if FromDict(s, inst, v).Ok? {
        AssignFromValues(s, inst, v.entries, 0, inst);
      }
    }
  }

  /** Key `k` of the dict makes the import raise `e`: it is undeclared and
      `e` is "No property exists", or its assignment raises `e`. */
  predicate KeyFails(s: Schema, inst: Instance, d: map<string, Value>, k: string, e: Error)
    requires k in d
  {
    if Declared(s, k) then SetProp(Lookup(s, k), Current(inst, k), d[k]) == Err(e)
    else e == ValidationError(NoSuchProperty)
  }

  /** Which failing key is met first depends on the dict's iteration order;
      whether the import fails does not. It fails exactly when some key
      fails, and what it raises is the failure of one of the failing keys. */
  lemma FromDictFails(s: Schema, inst: Instance, v: Value)
    requires v.Dict?
    ensures FromDict(s, inst, v).Err? <==>
              exists k :: k in v.entries && (!Declared(s, k) || SetProp(Lookup(s, k), Current(inst, k), v.entries[k]).Err?)
    ensures FromDict(s, inst, v).Err? ==>
              exists k :: k in v.entries && KeyFails(s, inst, v.entries, k, FromDict(s, inst, v).error)
  {
    if forall k :: k in v.entries ==> Declared(s, k) {
      FromDictImports(s, inst, v);
      AssignFromError(s, inst, v.entries, 0, inst);
    }
  }

  /** A failing import loop raises the failure of some key it assigns. */
  lemma {:induction false} AssignFromError(s: Schema, inst: Instance, d: map<string, Value>, i: nat, acc: Instance)
    requires i <= |s.fields|
    ensures AssignFrom(s, inst, d, i, acc).Err? ==>
              exists k :: k in d && Declared(s, k) &&
                SetProp(Lookup(s, k), Current(inst, k), d[k]) == Err(AssignFrom(s, inst, d, i, acc).error)
    decreases |s.fields| - i
  {
    if i < |s.fields| {
      var name := s.fields[i].name;
      FieldDeclared(s, i);
      if name in d {
        var st := SetProp(Lookup(s, name), Current(inst, name), d[name]);
        if st.Ok? {
          AssignFromError(s, inst, d, i + 1, Store(acc, name, st.value));
        }
      } else {
        AssignFromError(s, inst, d, i + 1, acc);
      }
    }
  }

  /** A value that is not a dict leaves the instance as it was. */
  lemma FromDictIgnoresNonDict(s: Schema, inst: Instance, v: Value)
    requires !v.Dict?
    ensures FromDict(s, inst, v) == Ok(inst)
  {
  }

  ghost predicate NoEmbedded(s: Schema)
    decreases s
  {
    forall i :: 0 <= i < |s.fields| ==> NoEmbeddedProp(s.fields[i].prop)
  }

  ghost predicate NoEmbeddedProp(p: Property)
    decreases p
  {
    match p.kind
    case EmbeddedLinkKind(_) => false
    case DictKind(n) => NoEmbedded(n)
    case ListKind(item) => NoEmbedded(item)
    case _ => true
  }

  /** `ToDict` yields exactly one entry per declared property name. */
  lemma ToDictKeys(s: Schema, inst: Instance)
    ensures ToDict(s, inst).Dict? && ToDict(s, inst).entries.Keys == Names(s)
  {
  }

  /** Round trip through a dict, for schemas without EmbeddedLink properties:
      importing the export of `x` into any well-formed `y` succeeds and
      reproduces the export of `x`. */
  lemma {:induction false} DictRoundTrip(s: Schema, x: Instance, y: Instance)
    requires Valid(s, x) && Valid(s, y) && NoEmbedded(s)
    ensures FromDict(s, y, ToDict(s, x)).Ok?
    ensures ToDict(s, FromDict(s, y, ToDict(s, x)).value) == ToDict(s, x)
    decreases SchemaSize(s), 1
  {
    var dx := ToDict(s, x);
    var d := dx.entries;
    forall k | k in d && Declared(s, k)
      ensures SetProp(Lookup(s, k), Current(y, k), d[k]).Ok?
      ensures Export(Lookup(s, k), AfterSet(Lookup(s, k), Current(y, k), d[k], Current(y, k))) == d[k]
    {
      var p := Lookup(s, k);
      assert NoEmbeddedProp(p) by {
        var j := LastIndex(s, k);
        assert p == s.fields[j].prop;
      }
      SetPropRoundTrip(p, Current(x, k), Current(y, k));
    }
    FromDictImports(s, y, dx);
    var z := FromDict(s, y, dx).value;
    assert ToDict(s, z).entries == d;
  }

  lemma {:induction false} SetPropRoundTrip(p: Property, b: Option<Stored>, a: Option<Stored>)
    requires NoEmbeddedProp(p)
    requires p.kind.LinkKind? || (b.Some? && ValidStored(p, b.value))
    requires p.kind.LinkKind? || (a.Some? && ValidStored(p, a.value))
    ensures SetProp(p, a, Export(p, b)).Ok?
    ensures Export(p, AfterSet(p, a, Export(p, b), a)) == Export(p, b)
    decreases PropSize(p), 0
  {
    match p.kind
    case DictKind(n) =>
      DictRoundTrip(n, b.value.inst, a.value.inst);
    case ListKind(item) =>
      var xs := b.value.items;
      var es := Export(p, b).items;
      ItemsRoundTrip(item, xs, es);
      var zs := ValidateItems(item, es).value;
      assert Export(p, Some(Items(zs))).items == es;
    case LinkKind(_, _, _) =>
    case EmbeddedLinkKind(_) =>
    case _ =>
  }

  lemma {:induction false} ItemsRoundTrip(item: Schema, xs: seq<Instance>, es: seq<Value>)
    requires forall i :: 0 <= i < |xs| ==> Valid(item, xs[i])
    requires |xs| > 0 ==> Construct(item).Ok?
    requires NoEmbedded(item)
    requires |es| == |xs| && forall i :: 0 <= i < |xs| ==> es[i] == ToDict(item, xs[i])
    ensures ValidateItems(item, es).Ok?
    ensures |ValidateItems(item, es).value| == |xs|
    ensures forall i :: 0 <= i < |xs| ==> ToDict(item, ValidateItems(item, es).value[i]) == es[i]
    decreases SchemaSize(item), 2, |xs|
  {
    if |xs| > 0 {
      ItemRoundTrip(item, xs[0]);
      ItemsRoundTrip(item, xs[1..], es[1..]);
      var zs := ValidateItems(item, es).value;
      var rest := ValidateItems(item, es[1..]).value;
      assert zs == [ValidateItem(item, es[0]).value] + rest;
      forall i | 0 <= i < |xs| ensures ToDict(item, zs[i]) == es[i] {
        if i > 0 { assert zs[i] == rest[i - 1]; }
      }
    }
  }

  /** One exported item validates back to an item with the same export. */
  lemma ItemRoundTrip(item: Schema, x: Instance)
    requires Valid(item, x) && Construct(item).Ok? && NoEmbedded(item)
    ensures ValidateItem(item, ToDict(item, x)).Ok?
    ensures ToDict(item, ValidateItem(item, ToDict(item, x)).value) == ToDict(item, x)
    decreases SchemaSize(item), 2, 0
  {
    ConstructValid(item);
    var c := Construct(item).value;
    DictRoundTrip(item, x, c);
    assert ValidateItem(item, ToDict(item, x)) == FromDict(item, c, ToDict(item, x));
  }

  /** The entries of `m` whose keys are in `keep`. */
  function Restrict(m: map<string, Value>, keep: set<string>): map<string, Value> {
    map k | k in m && k in keep :: m[k]
  }

  /** Importing only some of the exported entries of `x` into `y`: the
      imported names export as in `x`, every other name as in `y`. */
  lemma PartialRoundTrip(s: Schema, x: Instance, y: Instance, keep: set<string>)
    requires Valid(s, x) && Valid(s, y) && NoEmbedded(s)
    ensures var d := Restrict(ToDict(s, x).entries, keep);
            FromDict(s, y, Dict(d)).Ok? &&
            forall k :: k in Names(s) ==>
              ToDict(s, FromDict(s, y, Dict(d)).value).entries[k] ==
                (if k in keep then ToDict(s, x).entries[k] else ToDict(s, y).entries[k])
  {
    var dx := ToDict(s, x).entries;
    var d := Restrict(dx, keep);
    forall k | k in d && Declared(s, k)
      ensures SetProp(Lookup(s, k), Current(y, k), d[k]).Ok?
      ensures Export(Lookup(s, k), AfterSet(Lookup(s, k), Current(y, k), d[k], Current(y, k))) == d[k]
    {
      var p := Lookup(s, k);
      assert NoEmbeddedProp(p) by {
        var j := LastIndex(s, k);
        assert p == s.fields[j].prop;
      }
      SetPropRoundTrip(p, Current(x, k), Current(y, k));
    }
    FromDictImports(s, y, Dict(d));
    var z := FromDict(s, y, Dict(d)).value;
    forall k | k in Names(s)
      ensures ToDict(s, z).entries[k] == (if k in keep then dx[k] else ToDict(s, y).entries[k])
    {
      var p := Lookup(s, k);
      if k in keep {
        assert k in d && d[k] == dx[k];
        assert Current(z, k) == AfterSet(p, Current(y, k), d[k], Current(y, k));
      } else {
        assert k !in d;
        assert Current(z, k) == Current(y, k);
      }
    }
  }
}

=== FILE: sequences.dfy ===
/** Order-preserving selection from a sequence, and collecting a sequence
    of results that aborts at the first failure. */
module Sequences {
  import opened Results

  /** The elements of `xs` satisfying `p`, in order. */
  function Select<T>(xs: seq<T>, p: T -> bool): (r: seq<T>)
    ensures forall j :: 0 <= j < |r| ==> p(r[j]) && r[j] in xs
    decreases |xs|
  {
    if |xs| == 0 then []
    else
      var init := xs[..|xs| - 1];
      assert forall x :: x in init ==> x in xs;
      Select(init, p) + (if p(xs[|xs| - 1]) then [xs[|xs| - 1]] else [])
  }

  /** Selecting by a predicate and by its negation splits a sequence. */
  lemma {:induction false} SelectSplits<T>(xs: seq<T>, p: T -> bool, q: T -> bool)
    requires forall x :: q(x) == !p(x)
    ensures multiset(Select(xs, p)) + multiset(Select(xs, q)) == multiset(xs)
    decreases |xs|
  {
    if |xs| > 0 {
      var n := |xs| - 1;
      var init := xs[..n];
      var x := xs[n];
      SelectSplits(init, p, q);
      assert xs == init + [x];
      assert multiset(xs) == multiset(init) + multiset{x};
      if p(x) {
        assert multiset(Select(xs, p)) == multiset(Select(init, p)) + multiset{x};
        assert Select(xs, q) == Select(init, q);
      } else {
        assert Select(xs, p) == Select(init, p);
        assert multiset(Select(xs, q)) == multiset(Select(init, q)) + multiset{x};
      }
    }
  }

  /** The values of `rs` in order when every one succeeded, else the error
      of the first failure. */
  function AllOk<T>(rs: seq<Result<T>>): (r: Result<seq<T>>)
    ensures r.Ok? <==> forall i :: 0 <= i < |rs| ==> rs[i].Ok?
    ensures r.Ok? ==> |r.value| == |rs| && forall i :: 0 <= i < |rs| ==> r.value[i] == rs[i].value
    ensures r.Err? ==>
              exists i :: 0 <= i < |rs| && rs[i].Err? && r.error == rs[i].error &&
                forall j :: 0 <= j < i ==> rs[j].Ok?
    decreases |rs|
  {
    if |rs| == 0 then Ok([])
    else
      var n := |rs| - 1;
      assert forall i :: 0 <= i < n ==> rs[..n][i] == rs[i];
      var init :- AllOk(rs[..n]);
      var last :- rs[n];
      Ok(init + [last])
  }

  /** Collecting one more result: a success extends the values so far, a
      failure after only successes is the first failure of the whole. */
  lemma AllOkStep<T>(rs: seq<Result<T>>, init: seq<T>)
    requires |init| < |rs| && AllOk(rs[..|init|]) == Ok(init)
    ensures rs[|init|].Ok? ==> AllOk(rs[..|init| + 1]) == Ok(init + [rs[|init|].value])
    ensures rs[|init|].Err? ==> AllOk(rs) == Err(rs[|init|].error)
  {
    var n := |init|;
    if rs[n].Ok? {
      assert rs[..n + 1][..n] == rs[..n];
      assert rs[..n + 1][n] == rs[n];
    } else {
      forall j | 0 <= j < n ensures rs[j].Ok? {
        assert rs[..n][j] == rs[j];
      }
      var r := AllOk(rs);
      assert r.Err?;
      var k :| 0 <= k < |rs| && rs[k].Err? && r.error == rs[k].error && forall j :: 0 <= j < k ==> rs[j].Ok?;
      assert k == n;
    }
  }
}

=== FILE: validation.dfy ===
/** The `_validate` methods of the scalar descriptors. Each check is applied
    only when the value is truthy, and a bound only when the bound is truthy,
    so every falsy value (None, "", 0, False, [], {}) is accepted by every
    scalar property. */
module Validation {
  import opened Results
  import opened Values
  import opened Properties

  /** `StringProperty._validate`. */
  function ValidateString(minLength: int, maxLength: int, v: Value): (r: Outcome)
    ensures r == Pass <==>
      !Truthy(v) || (v.Str? && (minLength == 0 || |v.s| >= minLength) && (maxLength == 0 || |v.s| <= maxLength))
    ensures Truthy(v) && !v.Str? ==> r == Fail(ValidationError(NotAString))
    ensures r.Fail? ==> r.error.ValidationError?
  {
    if Truthy(v) && !v.Str? then Fail(ValidationError(NotAString))
    else if Truthy(v) && minLength != 0 && |v.s| < minLength then Fail(ValidationError(StringTooShort))
    else if Truthy(v) && maxLength != 0 && |v.s| > maxLength then Fail(ValidationError(StringTooLong))
    else Pass
  }

  /** `NumberProperty._validate`: comparisons are numeric, `True` counting as 1. */
  function ValidateNumber(minimum: real, maximum: real, v: Value): (r: Outcome)
    ensures r == Pass <==>
      !Truthy(v) || (IsNumber(v) && (minimum == 0.0 || AsReal(v) >= minimum) && (maximum == 0.0 || AsReal(v) <= maximum))
    ensures Truthy(v) && !IsNumber(v) ==> r == Fail(ValidationError(NotANumber))
    ensures r.Fail? ==> r.error.ValidationError?
  {
    if Truthy(v) && !IsNumber(v) then Fail(ValidationError(NotANumber))
    else if Truthy(v) && minimum != 0.0 && AsReal(v) < minimum then Fail(ValidationError(BelowMinimum))
    else if Truthy(v) && maximum != 0.0 && AsReal(v) > maximum then Fail(ValidationError(AboveMaximum))
    else Pass
  }

  /** `IntegerProperty._validate`: a type check only; the inherited
      `minimum`/`maximum` are never consulted. */
  function ValidateInteger(v: Value): (r: Outcome)
    ensures r == Pass <==> !Truthy(v) || IsNativeInt(v)
    ensures r.Fail? ==> r == Fail(ValidationError(NotANumber))
  {
    if Truthy(v) && !IsNativeInt(v) then Fail(ValidationError(NotANumber)) else Pass
  }

  /** `BooleanProperty._validate`. */
  function ValidateBoolean(v: Value): (r: Outcome)
    ensures r == Pass <==> !Truthy(v) || v.Bool?
    ensures r.Fail? ==> r == Fail(ValidationError(NotABoolean))
  {
    if Truthy(v) && !v.Bool? then Fail(ValidationError(NotABoolean)) else Pass
  }

  /** Dispatch on the descriptor class; the base `Property._validate`
      accepts everything. */
  function ValidateScalar(k: Kind, v: Value): (r: Outcome)
    ensures !Truthy(v) ==> r == Pass
    ensures r.Fail? ==> IsScalarKind(k) && r.error.ValidationError?
  {
    match k
    case StringKind(lo, hi) => ValidateString(lo, hi, v)
    case NumberKind(lo, hi) => ValidateNumber(lo, hi, v)
    case IntegerKind(_, _) => ValidateInteger(v)
    case BooleanKind => ValidateBoolean(v)
    case _ => Pass
  }

  /** A truthy value of the wrong Python type is refused by each scalar kind. */
  lemma WrongTypeRejected(k: Kind, v: Value)
    requires IsScalarKind(k) && Truthy(v)
    requires k.StringKind? ==> !v.Str?
    requires k.NumberKind? ==> !IsNumber(v)
    requires k.IntegerKind? ==> !IsNativeInt(v)
    requires k.BooleanKind? ==> !v.Bool?
    ensures ValidateScalar(k, v).Fail? && ValidateScalar(k, v).error.ValidationError?
  {
  }
}

=== FILE: values.dfy ===
/** The Python values a property can be handed: JSON scalars and containers,
    plus references to document objects (what an `EmbeddedLinkProperty`
    inflates to). */
module Values {

  /** `sys.maxint` on a 64-bit CPython 2 build. Arithmetic on `int` that
      leaves this range yields a `long`, which `isinstance(v, int)` rejects.
      An `Int` stands for an `int` when it lies in the range and for a `long`
      otherwise; a `long` of small magnitude (`5L`) is not told apart. */
  const MaxNativeInt: int := 0x7FFF_FFFF_FFFF_FFFF
  const MinNativeInt: int := -0x8000_0000_0000_0000

  datatype Value =
    | Null                               // Python None
    | Bool(b: bool)
    | Int(i: int)                        // int, or long outside the native range
    | Float(r: real)                     // floating point, treated as an exact real
    | Str(s: string)                     // str or unicode
    | List(items: seq<Value>)
    | Dict(entries: map<string, Value>)
    | Obj(ref: nat, classes: set<string>, id: Value)
      // a document object: its identity, the names of the classes it is an
      // instance of, and the value of its `_id` property

  /** Python truthiness. Objects of the mapping layer define neither
      `__len__` nor `__nonzero__`, so they are always true. */
  predicate Truthy(v: Value) {
    match v
    case Null => false
    case Bool(b) => b
    case Int(i) => i != 0
    case Float(r) => r != 0.0
    case Str(s) => |s| > 0
    case List(xs) => |xs| > 0
    case Dict(m) => |m| > 0
    case Obj(_, _, _) => true
  }

  /** `isinstance(v, (int, long, float, complex))`; `bool` is a subclass of `int`. */
  predicate IsNumber(v: Value) {
    v.Bool? || v.Int? || v.Float?
  }

  /** `isinstance(v, int)` on a 64-bit build. */
  predicate IsNativeInt(v: Value) {
    v.Bool? || (v.Int? && MinNativeInt <= v.i <= MaxNativeInt)
  }

  /** The numeric value Python compares with; `True` is 1 and `False` is 0. */
  function AsReal(v: Value): real
    requires IsNumber(v)
  {
    match v
    case Bool(b) => if b then 1.0 else 0.0
    case Int(i) => i as real
    case Float(r) => r
  }

  /** `isinstance(v, cls)` for a class named `cls`. */
  predicate IsInstanceOf(v: Value, cls: string) {
    v.Obj? && cls in v.classes
  }

  /** A value a bound-free `StringProperty` accepts: a string, or anything falsy. */
  predicate StringLike(v: Value) {
    !Truthy(v) || v.Str?
  }

  /** `str.lower()` on ASCII text. */
  function Lower(s: string): (r: string)
    ensures |r| == |s|
    ensures forall i :: 0 <= i < |s| ==> r[i] == LowerChar(s[i])
    ensures forall i :: 0 <= i < |r| ==> !('A' <= r[i] <= 'Z')
  {
    if |s| == 0 then "" else [LowerChar(s[0])] + Lower(s[1..])
  }

  /** One character of `str.lower()`: a capital becomes the letter at the
      same place in the alphabet; anything else is kept. */
  function LowerChar(c: char): (r: char)
    ensures 'A' <= c <= 'Z' ==> r == "abcdefghijklmnopqrstuvwxyz"[c as int - 'A' as int]
    ensures !('A' <= c <= 'Z') ==> r == c
  {
    if 'A' <= c <= 'Z' then (c as int - 'A' as int + 'a' as int) as char else c
  }

  /** The number a string of decimal digits denotes, read left to right. */
  function DigitsValue(s: string): int
    decreases |s|
  {
    if |s| == 0 then 0 else 10 * DigitsValue(s[..|s| - 1]) + (s[|s| - 1] as int - '0' as int)
  }

  /** Decimal rendering of an integer, as `str(n)` gives it: the digits of
      its magnitude without leading zeros, after a `-` when it is negative. */
  function Decimal(n: int): (r: string)
    ensures |r| > 0
    ensures r[0] == '-' <==> n < 0
    ensures forall k :: (if n < 0 then 1 else 0) <= k < |r| ==> '0' <= r[k] <= '9'
    ensures n >= 0 ==> DigitsValue(r) == n && (r[0] == '0' ==> r == "0")
    ensures n < 0 ==> |r| >= 2 && DigitsValue(r[1..]) == -n && r[1] != '0'
    decreases if n < 0 then 1 - n else n
  {
    if n < 0 then "-" + Decimal(-n)
    else if n < 10 then [Digit(n)]
    else
      var r := Decimal(n / 10) + [Digit(n % 10)];
      assert r[..|r| - 1] == Decimal(n / 10);
      r
  }

  /** The character of one decimal digit. */
  function Digit(d: int): (c: char)
    requires 0 <= d < 10
    ensures '0' <= c <= '9' && c as int - '0' as int == d
  {
    ('0' as int + d) as char
  }
}
